=== FILE: README.md ===
# Restaurant POS checkout engine in Dafny

This project models the checkout engine of a single-terminal restaurant point of sale. The modelled application is a React application backed by a Supabase store. It covers:

- the order ticket, with add-and-merge, quantity changes, removal, void, hold and resume;
- the modifier selector, with radio groups, capped checkbox groups, validation and the price preview;
- the payment dialog, with discounts, the manager gate above 20%, tips, the final total, the tender check, change due, and the payment record with its discount log;
- the manager-authorisation dialog and the PIN keypads;
- the login screen's automatic clock-out after nine hours;
- the timeclock's clock-in, clock-out and break handlers;
- the live sales-per-labour-hour (SPLH) banner.

Every handler becomes a pure function from an explicit state, plus the store, to the next state and store.

The store is the datatype `Schema.Store`, with one sequence per table. A store call's outcome is a parameter:

- `reachable: bool` says whether the awaited call threw;
- `Status = Answered | ErrorReply | Thrown` covers calls whose error reply is handled differently from a throw;
- `inserted: bool` says whether an insert succeeded.

`.single()` is `Rows.Single`: it answers only when exactly one row matches. Clocks and generated ids are parameters: `now`, `todayStart`, `freshId`, `freshShiftId`.

Money is exact `real`, and timestamps are integer milliseconds.

The modifier object `{ [group]: options[] }` is an ordered list of `Choice(group, options)` in key insertion order. Writing a group replaces it in place or appends it, as object spread does. Lines merge on structural equality of that list, because the source compares `JSON.stringify` output, which depends on key and option order.

A number input's text is `Payment.Field = Blank | Typed(v)`. `parseFloat(x) || 0` is `OrZero`, and `parseFloat(x) || fallback` is `OrElse`; with `OrElse`, a typed 0 also falls back.

Modules and files:

| module | file | models |
|---|---|---|
| `Schema` | schema.dfy | row shapes, roles, the store's tables, shared constants |
| `Rows` | rows.dfy | `.eq` filtering and `.single()` |
| `ModMap` | modmap.dfy | the ordered modifier object, its lookup, write and price |
| `Ticket` | ticket.dfy | ticket lines, subtotal, tax and total, add, quantity change and remove |
| `ModifierDialog` | modifier_dialog.dfy | the selector: toggling, `canSelect`, validation, confirm, preview |
| `Payment` | payment.dfy | the payment dialog |
| `PinPad` | pin_pad.dfy | the 4–6 digit PIN buffer shared by the keypads |
| `ManagerAuth` | manager_auth.dfy | the manager-authorisation dialog |
| `HeldOrders` | held_orders.dfy | the held-orders table and the held-tickets list |
| `Register` | register.dfy | the register screen's handlers and their composition with the dialogs |
| `Shifts` | shifts.dfy | row updates on shifts and employees, and the clock-state invariant |
| `PinLogin` | pin_login.dfy | the login screen with automatic clock-out |
| `Timeclock` | timeclock.dfy | the timeclock screen |
| `Splh` | splh.dfy | the SPLH banner |

Behaviour of the code that the model keeps as written:

- Merging is order-sensitive. The same options picked in another order start a new line (`Ticket.MergeIsOrderSensitive`), and so do the same groups written in another order (`Ticket.GroupOrderIsMergeSensitive`). It is not keyed on a canonical form.
- The discount percentage is not clamped to [0, 100]. Hours are not clamped either, but SPLH still never divides by a non-positive number.
- Holding clears the ticket even when the snapshot insert fails. This is listed under "## Findings".
- Resuming or deleting a held id that does not exist succeeds silently and changes nothing (`HeldOrders.DeleteMissingId`). It is not reported as an error.
- The register's cached held-orders list is reloaded after a hold only. It is not reloaded after a resume or a delete.
- The discount log entry is written before the order insert, and it stays when that insert fails (`Register.CheckoutRecordsFinalTotal`).

## Model

| member | source | states |
|---|---|---|
| Ticket.Subtotal | restaurant-pos/components/POSLayout.tsx:37 | the sum of the line totals, never negative when no line total is |
| Ticket.Tax | restaurant-pos/components/POSLayout.tsx:38 | for a non-negative subtotal, the tax lies between 0 and the subtotal |
| Ticket.Total | restaurant-pos/components/POSLayout.tsx:39 | tax never lowers a non-negative subtotal, and the total is 0 exactly when the subtotal is |
| Ticket.TotalIncludesTax | restaurant-pos/components/POSLayout.tsx:37-39 | tax is 8% of the subtotal and the total is 108% of it |
| Ticket.SubtotalOfConsistent | restaurant-pos/components/POSLayout.tsx:37 | on a consistent ticket the subtotal (sum of line totals) equals the independent sum of quantity × unit price |
| Ticket.FindLine | restaurant-pos/components/POSLayout.tsx:99-101 | returns the first line with the same menu item id and identical modifier object, or -1 exactly when none exists |
| Ticket.AddItem | restaurant-pos/components/POSLayout.tsx:92-118 | a matching line gains one unit and one unit price with all other lines unchanged; otherwise exactly one new line of quantity 1 priced at the unit price is appended |
| Ticket.AddItemSubtotal | restaurant-pos/components/POSLayout.tsx:92-97 | adding raises the subtotal by exactly the menu price plus every selected option's price, whether it merges or appends |
| Ticket.AddItemConsistent | restaurant-pos/components/POSLayout.tsx:103-115 | when every line for the item holds the item's current price, adding keeps every line's total equal to quantity × unit price |
| Ticket.StalePriceBreaksConsistency | restaurant-pos/components/POSLayout.tsx:103-106 | a line holding the item at another price merges with the current price into a line whose total is not quantity × unit price |
| Ticket.AddItemIdsUnique | restaurant-pos/components/POSLayout.tsx:108-116 | adding with a fresh id keeps line ids unique |
| Ticket.AddTwiceMerges | restaurant-pos/components/POSLayout.tsx:99-117 | adding the same item and modifiers twice yields one line of quantity 2, not two lines |
| Ticket.MergeIsOrderSensitive | restaurant-pos/components/POSLayout.tsx:100 | the same two options in the opposite order have equal price but start a second line |
| Ticket.GroupOrderIsMergeSensitive | restaurant-pos/components/POSLayout.tsx:99-101 | the same choices written group by group in the opposite order read the same in every group, yet start a second line |
| Ticket.ChangeQuantity | restaurant-pos/components/POSLayout.tsx:120-140 | a quantity change never lengthens the ticket |
| Ticket.ChangeQuantityKeepsOthers | restaurant-pos/components/POSLayout.tsx:123-138 | a quantity change leaves every line with another id untouched and in order |
| Ticket.ChangeQuantityAt | restaurant-pos/components/POSLayout.tsx:123-133 | with unique ids, the line is dropped when max(0, q + delta) is 0 and rescaled in place otherwise |
| Ticket.ChangeQuantityConsistent | restaurant-pos/components/POSLayout.tsx:124-133 | a quantity change keeps every line's total equal to quantity × unit price |
| Ticket.ChangeQuantitySubtotal | restaurant-pos/components/POSLayout.tsx:120-140 | the subtotal loses the line's old total and gains unit price × new quantity (0 when dropped) |
| Ticket.RemoveAt | restaurant-pos/components/POSLayout.tsx:142-144 | with unique ids, removal drops exactly that line and keeps the rest in order |
| Ticket.RemoveItem | restaurant-pos/components/POSLayout.tsx:142-144 | no remaining line has the id, every line with another id remains, and nothing new appears |
| Ticket.WithoutKeepsIdsUnique | restaurant-pos/components/POSLayout.tsx:142-144 | removal keeps line ids unique |
| Ticket.RemoveSubtotal | restaurant-pos/components/POSLayout.tsx:142-144 | removing a line lowers the subtotal by exactly that line's total |
| Ticket.RemoveKeepsInvariant | restaurant-pos/components/POSLayout.tsx:142-144 | removal keeps the lines consistent and their ids unique |
| ModMap.Put | restaurant-pos/components/ModifierDialog.tsx:33-36 | after writing a group, its lookup is the new options and every other group reads as before; the groups already written keep their positions, and a new key is appended at the end |
| ModMap.PutGroups | restaurant-pos/components/ModifierDialog.tsx:33-36 | writing a group adds exactly that group to the key set |
| ModMap.PricePut | restaurant-pos/components/ModifierDialog.tsx:81-86 | writing a group changes the option total by the new group's price minus the old one's |
| ModMap.Lookup | restaurant-pos/components/ModifierDialog.tsx:29 | reading a group gives the options of the first choice with that group, and [] when the group was never written |
| ModifierDialog.Toggle | restaurant-pos/components/ModifierDialog.tsx:28-53 | radio groups become [option] or []; checkbox groups append only under the cap and are unchanged at the cap; on uncheck the group keeps the options with another id, in their order and multiplicity; other groups are untouched, the groups already written keep their positions, and the result is either the selection unchanged or the one write of the clicked group |
| ModifierDialog.ToggleGroups | restaurant-pos/components/ModifierDialog.tsx:33-50 | a click adds no group but the clicked one, and adds that one only when it writes |
| ModifierDialog.DropOption | restaurant-pos/components/ModifierDialog.tsx:49 | the result is a subsequence of the options, and keeps each option with another id exactly as often as it occurs and no option with that id |
| ModifierDialog.CanSelect | restaurant-pos/components/ModifierDialog.tsx:133-135 | a checkbox is enabled exactly when clicking it changes the selection |
| ModifierDialog.ToggleRespectsCap | restaurant-pos/components/ModifierDialog.tsx:28-53 | a group within its cap stays within it after any toggle of its own options |
| ModifierDialog.ToggleKeepsCaps | restaurant-pos/components/ModifierDialog.tsx:40 | from selections within every group's cap, any toggle stays within every cap |
| ModifierDialog.SharedNameBreaksCaps | restaurant-pos/components/ModifierDialog.tsx:29-43 | two groups sharing a name share one selection list, so ticking under the looser cap can break the tighter cap |
| ModifierDialog.CheckboxClick | restaurant-pos/components/ModifierDialog.tsx:133-135 | clicking an enabled checkbox flips whether it is ticked; a disabled one can only be a no-op |
| ModifierDialog.Validate | restaurant-pos/components/ModifierDialog.tsx:55-73 | no errors iff every group is valid; every required-but-empty and over-maximum group raises its error, and every error comes from such a group |
| ModifierDialog.Messages | restaurant-pos/components/ModifierDialog.tsx:62-68 | one message per error, in the order the errors were found |
| ModifierDialog.Confirm | restaurant-pos/components/ModifierDialog.tsx:22-26 | an item without groups confirms at once with an empty object; otherwise it confirms with the selections iff every group validates, and a rejection carries messages |
| ModifierDialog.RequiredGroupBlocks | restaurant-pos/components/ModifierDialog.tsx:62-64 | an empty required group always raises its error and blocks confirmation |
| ModifierDialog.PreviewAfterCheck | restaurant-pos/components/ModifierDialog.tsx:81-86 | ticking an option under the cap raises the previewed price by exactly that option's price |
| ModifierDialog.PreviewPrice | restaurant-pos/components/ModifierDialog.tsx:81-86 | the preview is the item price plus the independent group-by-group sum of the ticked options' prices |
| Payment.TipPreset | restaurant-pos/components/PaymentModal.tsx:43-47 | the tip becomes p% of the pre-discount total, the mode becomes percent, the custom field clears, nothing else changes |
| Payment.Initial | restaurant-pos/components/PaymentModal.tsx:31-40 | the dialog opens on card with no tip, no discount and no authorisation pending, so its final total is the ticket total |
| Payment.CustomTip | restaurant-pos/components/PaymentModal.tsx:49-57 | in percent mode the tip is v% of the total, in amount mode it is v, and an empty field gives 0 |
| Payment.NoTip | restaurant-pos/components/PaymentModal.tsx:196-200 | the tip and the custom field are cleared and nothing else changes |
| Payment.CustomPercentMatchesPreset | restaurant-pos/components/PaymentModal.tsx:43-57 | a custom percentage tip equals the preset tip of the same percentage |
| Payment.PresetTipAddsToFinal | restaurant-pos/components/PaymentModal.tsx:43-47 | whatever the discount, a preset tip raises the final total by exactly that percentage of the pre-discount total over no tip |
| Payment.NeedsManager | restaurant-pos/components/PaymentModal.tsx:63 | a manager never needs authorisation; anyone else needs it exactly for a discount over 20 |
| Payment.DiscountChange | restaurant-pos/components/PaymentModal.tsx:59-69 | a non-manager's entry over 20 leaves the discount unchanged and raises a pending discount with an auth request; any other entry applies directly, so a manager never waits |
| Payment.AuthSuccess | restaurant-pos/components/PaymentModal.tsx:71-75 | the pending discount takes effect and the pending value resets to 0 |
| Payment.AuthCancel | restaurant-pos/components/PaymentModal.tsx:320-324 | cancelling drops the pending discount and the typed value and keeps the applied discount |
| Payment.SubmitManagerPin | restaurant-pos/components/PaymentModal.tsx:71-75 | an authorising PIN applies the pending discount and closes the wait; a refused PIN leaves the payment state unchanged |
| Payment.HighDiscountNeedsManager | restaurant-pos/components/PaymentModal.tsx:59-75 | a non-manager's discount over 20% changes the applied discount only through a PIN some manager holds |
| Payment.FinalTotalShape | restaurant-pos/components/PaymentModal.tsx:77-81 | the final total is total × (1 − d/100) + tip; the discount never reduces the tip |
| Payment.FinalTotal | restaurant-pos/components/PaymentModal.tsx:77-81 | with no discount the final total is total plus tip, with 100% it is the tip alone, and for a discount in [0, 100] on a non-negative total it lies between the tip and total plus tip |
| Payment.TenderGate | restaurant-pos/components/PaymentModal.tsx:301-307 | completion is enabled for card always, for cash iff the typed cash covers the final total, for split iff both are typed and their sum covers it |
| Payment.SubmitDisabled | restaurant-pos/components/PaymentModal.tsx:301-307 | a card payment is never blocked, and a blocked cash payment with an amount typed is short of the final total |
| Payment.ChangeDue | restaurant-pos/components/PaymentModal.tsx:285-292 | change is shown only for a typed cash payment, is never negative, and is either 0 or cash − final total |
| Payment.ChangeCompletesTender | restaurant-pos/components/PaymentModal.tsx:289 | whenever cash payment can complete, change plus final total equals the cash tendered |
| Payment.Complete | restaurant-pos/components/PaymentModal.tsx:83-111 | a "discount_applied" log entry exists iff the discount is positive; the record carries the final total, tip and discount; cash is 0 for card, card is 0 for cash, and card falls back to the final total |
| Payment.CardDefaultsToFinalTotal | restaurant-pos/components/PaymentModal.tsx:107 | a card payment with no amount typed records the whole final total on the card and no cash |
| Payment.OrElse | restaurant-pos/components/PaymentModal.tsx:107 | a typed non-zero amount is used as is; an empty field or a typed 0 falls back |
| Payment.OrZero | restaurant-pos/components/PaymentModal.tsx:51 | a typed amount is read as is and an empty field as 0, the same as the fallback form with fallback 0 |
| Payment.AuthorisedDiscountScenario | restaurant-pos/components/PaymentModal.tsx:43-81 | a $19.44 ticket with a manager-approved 25% discount and a 15% preset tip has a final total of 17.496 |
| PinPad.Press | restaurant-pos/components/ManagerAuthDialog.tsx:21-25 | a key is appended only while the buffer is shorter than six |
| PinPad.PressAllKeepsPrefix | restaurant-pos/components/PinLoginScreen.tsx:21-25 | any run of key presses keeps exactly the first keys typed up to six characters, so the buffer never exceeds six |
| ManagerAuth.Clear | restaurant-pos/components/ManagerAuthDialog.tsx:27-30 | PIN and error are both emptied |
| ManagerAuth.Submit | restaurant-pos/components/ManagerAuthDialog.tsx:32-61 | authorises iff the PIN has 4+ digits, the lookup did not throw and exactly one manager holds the PIN; every denial shows an error, a short PIN or a throw keeps the PIN, an invalid PIN clears it |
| ManagerAuth.NoManagerNoAuthorization | restaurant-pos/components/ManagerAuthDialog.tsx:42-58 | fail-closed: with no manager holding the PIN nothing authorises, whatever the store does |
| ManagerAuth.ActionText | restaurant-pos/components/ManagerAuthDialog.tsx:63-74 | void, soldout and high_discount get their phrases and the generic phrase is shown exactly for any other action |
| HeldOrders.ListFor | restaurant-pos/components/POSLayout.tsx:75-81 | lists exactly the snapshots the employee owns |
| HeldOrders.DeleteId | restaurant-pos/components/HoldResumeTicketModal.tsx:17 | no row with the id remains, every other row stays, and nothing is added |
| HeldOrders.DeleteMissingId | restaurant-pos/components/HoldResumeTicketModal.tsx:22-23 | deleting an id that is not held leaves the table unchanged |
| HeldOrders.DeleteOnlyThatSnapshot | restaurant-pos/components/HoldResumeTicketModal.tsx:22-27 | deleting one snapshot keeps every other snapshot of the employee listed |
| HeldOrders.Resume | restaurant-pos/components/HoldResumeTicketModal.tsx:15-20 | the same snapshot is handed over unless the delete throws, and after an answered delete it is no longer listed; only the held table changes |
| HeldOrders.Delete | restaurant-pos/components/HoldResumeTicketModal.tsx:22-27 | after an answered delete the id is no longer listed; only the held table changes |
| HeldOrders.Offers | restaurant-pos/components/HoldResumeTicketModal.tsx:39-78 | one resume and one delete per listed snapshot, in list order, for that snapshot and its id; none when the list is empty |
| HeldOrders.OffersReferToList | restaurant-pos/components/HoldResumeTicketModal.tsx:39-41 | every resume or delete offered refers to a listed snapshot, so an empty list offers none |
| Register.Start | restaurant-pos/components/POSLayout.tsx:28-44 | the register opens with an empty ticket, no dialog and no request open, and a held list of the employee's own snapshots |
| Register.HandleAddItem | restaurant-pos/components/POSLayout.tsx:83-90 | an item with groups opens the selector and leaves the ticket; any other item joins at its menu price |
| Register.PreviewIsCharged | restaurant-pos/components/POSLayout.tsx:413-421 | confirming the selector raises the subtotal by exactly the price it previewed |
| Register.OnMenu | restaurant-pos/components/POSLayout.tsx:58-73 | the menu offered is exactly the available items |
| Register.SetUnavailable | restaurant-pos/components/POSLayout.tsx:163 | the item with that id becomes unavailable and every other item is unchanged |
| Register.ChooseModifiers | restaurant-pos/components/POSLayout.tsx:413-419 | the ticket changes only when every group validates, and then rises by the customised unit price |
| Register.HandleVoid | restaurant-pos/components/POSLayout.tsx:146-152 | a manager clears the ticket; anyone else keeps it and raises a "void" request |
| Register.SoldOutLeavesMenu | restaurant-pos/components/POSLayout.tsx:162-174 | after marking sold out, the item is no longer offered and every other item is offered as before |
| Register.MarkItemSoldOut | restaurant-pos/components/POSLayout.tsx:162-174 | the item becomes unavailable and one "mark_sold_out" log entry is appended; no other table changes |
| Register.HandleMarkSoldOut | restaurant-pos/components/POSLayout.tsx:154-160 | a manager marks at once; anyone else raises a "soldout" request and the store is untouched |
| Register.AuthSuccess | restaurant-pos/components/POSLayout.tsx:229-236 | the request closes; "void" clears the ticket, "soldout" with an item marks it, and only "soldout" can change the store |
| Register.SubmitManagerPin | restaurant-pos/components/POSLayout.tsx:229-236 | a refused PIN leaves session and store unchanged; an authorising PIN performs the pending action |
| Register.VoidNeedsManager | restaurant-pos/components/POSLayout.tsx:146-152 | a non-manager's void clears the ticket only through a PIN some manager holds, and always through one that authorises |
| Register.SoldOutNeedsManager | restaurant-pos/components/POSLayout.tsx:154-160 | a non-manager's sold-out request reaches the store only through a PIN some manager holds |
| Register.Snapshot | restaurant-pos/components/POSLayout.tsx:178-185 | the held snapshot carries the ticket's lines, the employee, the time, and totals that are those of its own lines |
| Register.HandleHold | restaurant-pos/components/POSLayout.tsx:176-192 | an empty ticket is a no-op; otherwise the snapshot of lines and totals is stored when inserted, and the ticket is cleared and the list reloaded either way |
| Register.HandleHoldConfirmed | restaurant-pos/components/POSLayout.tsx:176-192 | the corrected hold: it does nothing unless the ticket is non-empty and the insert succeeds, and then acts as the hold as written |
| Register.HoldFailureLosesTicket | restaurant-pos/components/POSLayout.tsx:188-190 | with a failed insert, the ticket's lines are neither active nor held |
| Register.HoldConfirmedKeepsTicket | restaurant-pos/components/POSLayout.tsx:176-192 | with the confirmed hold, the lines are always either active or held |
| Register.HandleResume | restaurant-pos/components/POSLayout.tsx:194-197 | the snapshot's lines replace the ticket unless the delete throws |
| Register.HoldThenResume | restaurant-pos/components/POSLayout.tsx:176-197 | holding then resuming gives back the same lines, subtotal and tax, and the held table as it was |
| Register.HandlePayment | restaurant-pos/components/POSLayout.tsx:199-202 | payment opens iff the ticket is non-empty |
| Register.OrderRow | restaurant-pos/components/POSLayout.tsx:205-216 | the order row carries the ticket's lines with their own subtotal and tax, the employee and shift, and the payment's total, tip, type and discount |
| Register.HandlePaymentComplete | restaurant-pos/components/POSLayout.tsx:204-227 | the ticket clears and the order row is appended exactly when the insert succeeded |
| Register.Checkout | restaurant-pos/components/POSLayout.tsx:204-227 | only the override-log and orders tables change, and both only grow, keeping their earlier rows |
| Register.CheckoutRecordsFinalTotal | restaurant-pos/components/POSLayout.tsx:204-227 | the stored order holds the ticket's lines and the discounted, tipped total; the discount is logged iff positive, even when the order is not stored |
| Shifts.FindShift | restaurant-pos/components/TimeclockScreen.tsx:109-113 | a found shift is every row with that id; none is found unless exactly one matches |
| Shifts.CloseShift | restaurant-pos/components/TimeclockScreen.tsx:119-125 | the shift with that id gets the clock-out time and total hours, and every other shift is unchanged |
| Shifts.MarkBreak | restaurant-pos/components/TimeclockScreen.tsx:143-171 | the shift with that id gets a break start, or a break end, and every other shift is unchanged |
| Shifts.SetClock | restaurant-pos/components/TimeclockScreen.tsx:85-91 | the employee with that id gets the clock state and shift id, and every other employee is unchanged |
| Shifts.CloseShiftRecordsHours | restaurant-pos/components/TimeclockScreen.tsx:115-125 | closing the shift at now writes only its clock-out and (now − stored clock-in) / 3,600,000 ms as its hours |
| Shifts.SetClockKeepsConsistent | restaurant-pos/components/TimeclockScreen.tsx:85-91 | writing a consistent clock state keeps every employee clocked in exactly when a shift id is recorded |
| PinLogin.Clear | restaurant-pos/components/PinLoginScreen.tsx:27-30 | PIN and error are both emptied |
| PinLogin.AutoClockOut | restaurant-pos/components/PinLoginScreen.tsx:50-85 | a clocked-in employee whose shift ran more than 9 hours has it closed and is clocked out in the table and in the session; the closed shift is the stored row with only its clock-out and the hours since its stored clock-in written; otherwise nothing changes |
| PinLogin.Overdue | restaurant-pos/components/PinLoginScreen.tsx:50-63 | a login is overdue exactly when the employee is clocked in on one recorded shift that started more than 9 × 3,600,000 ms earlier |
| PinLogin.LoginClosesOverdueShift | restaurant-pos/components/PinLoginScreen.tsx:50-87 | an overdue login closes that shift at the login time, writing only its clock-out and the hours since its stored clock-in, and clocks the employee out; any other login changes no table |
| PinLogin.NineHoursIsNotOverdue | restaurant-pos/components/PinLoginScreen.tsx:63 | at exactly 9 hours or less nothing is closed and the clock state passes through |
| PinLogin.Login | restaurant-pos/components/PinLoginScreen.tsx:32-93 | logs in iff the PIN has 4+ digits, the lookup did not throw and one employee holds it; the employee and store after a login are that row and the store after the automatic clock-out; a short PIN, a throw from the employee lookup and an invalid PIN give their errors, and only the last clears the PIN; those three failures leave the store unchanged |
| PinLogin.LoginKeepsClockConsistent | restaurant-pos/components/PinLoginScreen.tsx:73-82 | login keeps every employee and the logged-in employee clocked in exactly when a shift id is recorded |
| Timeclock.Clear | restaurant-pos/components/TimeclockScreen.tsx:35-39 | PIN, employee and error are all reset |
| Timeclock.Submit | restaurant-pos/components/TimeclockScreen.tsx:41-65 | an employee is identified iff the PIN has 4+ digits, the lookup answered and one employee holds it; the error cases are distinct and only an invalid PIN clears the PIN |
| Timeclock.ClockIn | restaurant-pos/components/TimeclockScreen.tsx:67-99 | with an employee and a successful insert, a new open shift is stored and the employee is clocked in on it; a failed insert writes nothing and shows "Failed to clock in" |
| Timeclock.ClockOut | restaurant-pos/components/TimeclockScreen.tsx:101-141 | without a shift id nothing happens; a missing shift fails before writing; otherwise the shift keeps every field but its clock-out and hours, which become now and the hours since its stored clock-in, and the employee is clocked out |
| Timeclock.Break | restaurant-pos/components/TimeclockScreen.tsx:143-171 | without a shift id nothing happens; otherwise only the shift's break stamp changes and the clock state never does |
| Timeclock.HandlersKeepConsistent | restaurant-pos/components/TimeclockScreen.tsx:67-171 | every timeclock handler keeps employees clocked in exactly when a shift id is recorded |
| Timeclock.ClockInThenOut | restaurant-pos/components/TimeclockScreen.tsx:67-141 | clocking in then out leaves the employee clocked out and one closed shift from clock-in to clock-out recording its hours |
| Splh.TodaysCashierShifts | restaurant-pos/components/SPLHBanner.tsx:29-36 | exactly the shifts that started today and belong to a cashier |
| Splh.Rate | restaurant-pos/components/SPLHBanner.tsx:63 | with positive hours, rate × hours is the sales; otherwise the rate is 0, so nothing divides by zero or a negative |
| Splh.Refresh | restaurant-pos/components/SPLHBanner.tsx:24-67 | a throw leaves the banner unchanged, no qualifying shifts give all zeros, otherwise the banner shows the summed hours, today's sales and their guarded ratio |
| Splh.HoursWorked | restaurant-pos/components/SPLHBanner.tsx:46-54 | the summed shift hours, never negative when no shift's hours are |
| Splh.Sales | restaurant-pos/components/SPLHBanner.tsx:59 | the summed order totals, never negative when no order total is |
| Splh.HoursWorkedAppend | restaurant-pos/components/SPLHBanner.tsx:46-54 | hours worked add up over concatenated shift lists |
| Splh.HoursWorkedMatchesRecorded | restaurant-pos/components/SPLHBanner.tsx:49-53 | for closed shifts, the hours the banner measures equal the hours recorded on them at clock-out |
| Splh.HoursWorkedNonNegative | restaurant-pos/components/SPLHBanner.tsx:46-54 | shifts that do not end before they start give non-negative hours |
| Splh.SalesSinceMatchesReference | restaurant-pos/components/SPLHBanner.tsx:57-59 | the sales total equals the independent sum of the totals of orders taken today |
| Splh.RefreshShowsRatio | restaurant-pos/components/SPLHBanner.tsx:57-63 | the rate shown is the guarded ratio of today's sales, summed independently of the query's filter, to today's cashier hours |

## Findings

| source | as written | input that shows it | evidently intended | confidence | as-written member | corrected member |
|---|---|---|---|---|---|---|
| restaurant-pos/components/POSLayout.tsx:188-190 | the held-order insert's result is ignored and the ticket is cleared regardless | a non-empty ticket, and a store that rejects the insert | clear the ticket only once the snapshot is stored, so a parked ticket is never lost | medium, not executed | Register.HoldFailureLosesTicket | Register.HoldConfirmedKeepsTicket |

`Register.HandleHold` models the code as written. `Register.HandleHoldConfirmed` is the corrected hold, and the hold-and-resume round trip `Register.HoldThenResume` is stated over it.

## Left out

- Rendering, styling, modal show/hide flags, category tabs and the menu grid: these are presentation. The only visibility state kept is what a handler reads: the item whose selector is open, the pending authorisation, and whether the payment dialog is open.
- Input setters that only copy a value into state: the payment type and tip mode radios, and the cash and card fields. A handler reads these as fields of `Payment.State`.
- Network I/O, `async`/`await` and the Supabase client. Each call is a function on `Schema.Store` with its outcome passed in. A thrown call is modelled in these handlers:
  - `ManagerAuth.Submit`, `PinLogin.Login`, `Timeclock.Submit` and `Timeclock.Break`, through `reachable`;
  - `HeldOrders.Resume`, `HeldOrders.Delete` and `Splh.Refresh`, through `Status.Thrown`;
  - `Timeclock.ClockIn` and `Register.HandlePaymentComplete`, where `inserted = false` covers an error reply or a throw from the insert itself, since either leaves the rest of the handler undone.
- PinLogin.Login: only a throw from the employee lookup (PinLoginScreen.tsx:42) is modelled. The later calls in the same `try` can throw too, and each ends in "Login failed":
  - a throw from the shift lookup (52-56) or the shift update (65-71) leaves the store unchanged;
  - a throw from the employee update (73-79) comes after the shift was closed, so the shift stays closed while the employee row stays clocked in.
- Timeclock.ClockIn: a throw from the employee update (TimeclockScreen.tsx:85-91) is not modelled. It would show "Failed to clock in" with the new open shift already stored and the employee row not clocked in.
- Timeclock.ClockOut: only a missing shift row is modelled; it fails before any write. Two later throws are not modelled, and each would show "Failed to clock out":
  - a throw from the shift update (119-125) writes nothing;
  - a throw from the employee update (127-133) leaves the shift closed and the employee row clocked in.
- ModifierDialog.ToggleKeepsCaps: proved only for items whose groups have distinct names. Selections are keyed by group name (ModifierDialog.tsx:29-49), and nothing makes names distinct. When two groups share a name they share one list, and ticking under the looser cap can break the tighter one (`ModifierDialog.SharedNameBreaksCaps`).
- Register.HandleHold: only the error reply of the snapshot insert is modelled. A thrown insert would reject before the ticket is cleared, so it would keep the ticket and leave the store unchanged.
- Register.MarkItemSoldOut: both writes are modelled as applied. A throw from the menu update would skip the log insert and the reload; a throw from the log insert would keep the menu change but skip the reload.
- Register.Checkout: a throw from the discount-log insert is not modelled. It would reject before `onComplete` runs, so no order would be written and the ticket would stay.
- Group names are assumed not to look like array indices (such as "0" or "12"). JavaScript lists such keys first in numeric order, whereas `ModMap` keeps every group in insertion order; the two orders agree for all other names.
- Updates whose result the code ignores are modelled as applied. Examples: the employee row update after clock-in, and the menu and log writes of `markItemSoldOut`.
- Timers, `Date`, ISO strings and the "today" prefix: `now` and `todayStart` are integer milliseconds. Comparing ISO timestamp strings is modelled as comparing numbers.
- Floating-point arithmetic and `toFixed` rounding: money is exact `real`.
- `Number.parseFloat` on arbitrary text. A number input yields either empty text or a number (`Payment.Field`), so NaN cases are not represented.
- Tip preset buttons' highlight comparison (`tipAmount === total * 0.15`): display only.
- Component mount loaders, the receipt prompt, the online-ordering toggle, the database status probe, the setup instructions and page routing, including the inactivity timer and the role check for the register: these are I/O wrappers, static text or navigation.
- In-place mutation of the merged line object in `addItemToOrder`: modelled as a pure update.
- Ticket.AddItemConsistent: proved only when every line for the item holds the item's current price. A line restored from a held snapshot, or added before the menu was reloaded, keeps its old price, and merging then adds the new price to it (`Ticket.StalePriceBreaksConsistency`).
- Ticket.ChangeQuantity: the rescaled total `total / quantity × newQuantity` is exact here. In the source it is floating point and can differ from quantity × unit price by rounding.
- Splh.Refresh: the inner join on the employees table is modelled as "some employee row with the shift's employee id has the cashier role".

=== FILE: held_orders.dfy ===
/** The held-orders table and the held-tickets list: listing an employee's
    snapshots, resuming one (its rows are deleted and the snapshot handed to the
    register) and discarding one. */
module HeldOrders {
  import opened Schema
  import opened Rows

  /** The snapshots the register lists for one employee, in table order. */
  function ListFor(held: seq<HeldOrder>, employeeId: string): (r: seq<HeldOrder>)
    ensures forall i :: 0 <= i < |r| ==> r[i].employeeId == employeeId && r[i] in held
    ensures forall i :: 0 <= i < |held| && held[i].employeeId == employeeId ==> held[i] in r
  {
    Filter(held, (h: HeldOrder) => h.employeeId == employeeId)
  }

  predicate Listed(held: seq<HeldOrder>, id: string)
  {
    exists i :: 0 <= i < |held| && held[i].id == id
  }

  /** The table after `delete().eq("id", id)`: every row with that id is gone and
      every other row stays, in order. */
  function DeleteId(held: seq<HeldOrder>, id: string): (r: seq<HeldOrder>)
    ensures !Listed(r, id)
    ensures forall i :: 0 <= i < |r| ==> r[i] in held
    ensures forall i :: 0 <= i < |held| && held[i].id != id ==> held[i] in r
    ensures |r| <= |held|
  {
    var r := Filter(held, (h: HeldOrder) => h.id != id);
    assert forall i :: 0 <= i < |r| ==> r[i].id != id;
    r
  }

  /** Deleting an id that is not in the table changes nothing: no error is raised
      for a missing snapshot. */
  lemma DeleteMissingId(held: seq<HeldOrder>, id: string)
    requires !Listed(held, id)
    ensures DeleteId(held, id) == held
  {
    FilterKeepsAll(held, (h: HeldOrder) => h.id != id);
  }

  /** Deleting one snapshot keeps every other snapshot on its employee's list. */
  lemma DeleteOnlyThatSnapshot(held: seq<HeldOrder>, id: string, employeeId: string, h: HeldOrder)
    requires h in ListFor(held, employeeId) && h.id != id
    ensures h in ListFor(DeleteId(held, id), employeeId)
  {
    var k :| 0 <= k < |ListFor(held, employeeId)| && ListFor(held, employeeId)[k] == h;
    var j :| 0 <= j < |held| && held[j] == h;
    var d := DeleteId(held, id);
    var m :| 0 <= m < |d| && d[m] == h;
  }

  datatype Resumed = Resumed(store: Store, handedOver: Option<HeldOrder>)

  /** `handleResume`: the snapshot's rows are deleted, then the snapshot itself is
      handed to the register. A delete answered with an error leaves the table as
      it was but still hands the snapshot over; a thrown call stops the handler. */
  function Resume(store: Store, order: HeldOrder, status: Status): (r: Resumed)
    ensures r.handedOver.Some? <==> status != Thrown
    ensures r.handedOver.Some? ==> r.handedOver.value == order
    ensures status == Answered ==> !Listed(r.store.heldOrders, order.id)
    ensures status == Answered ==> r.store.heldOrders == DeleteId(store.heldOrders, order.id)
    ensures status != Answered ==> r.store == store
    ensures r.store == store.(heldOrders := r.store.heldOrders)
  {
    match status
    case Answered => Resumed(store.(heldOrders := DeleteId(store.heldOrders, order.id)), Some(order))
    case ErrorReply => Resumed(store, Some(order))
    case Thrown => Resumed(store, None)
  }

  /** `handleDelete`: the snapshot's rows are deleted and nothing is resumed. */
  function Delete(store: Store, id: string, status: Status): (r: Store)
    ensures status == Answered ==> !Listed(r.heldOrders, id)
    ensures status == Answered ==> r.heldOrders == DeleteId(store.heldOrders, id)
    ensures status != Answered ==> r == store
    ensures r == store.(heldOrders := r.heldOrders)
  {
    if status == Answered then store.(heldOrders := DeleteId(store.heldOrders, id)) else store
  }

  /** The two buttons a listed snapshot carries: resume it, or discard it by id. */
  datatype Offer = Offer(resume: HeldOrder, deleteId: string)

  /** The list's entries, one per snapshot in list order; an empty list shows
      only the "No held orders" text and offers nothing. */
  function Offers(list: seq<HeldOrder>): (r: seq<Offer>)
    ensures |r| == |list|
    ensures r == [] <==> list == []
    ensures forall i :: 0 <= i < |list| ==> r[i].resume == list[i] && r[i].deleteId == list[i].id
  {
    seq(|list|, i requires 0 <= i < |list| => Offer(list[i], list[i].id))
  }

  /** Every offered action refers to a listed snapshot. */
  lemma OffersReferToList(list: seq<HeldOrder>, o: Offer)
    requires o in Offers(list)
    ensures o.resume in list
    ensures Listed(list, o.deleteId)
  {
    var k :| 0 <= k < |Offers(list)| && Offers(list)[k] == o;
    assert list[k].id == o.deleteId;
  }
}

=== FILE: manager_auth.dfy ===
/** The manager authorisation dialog: a PIN keypad whose submission looks the PIN
    up among manager-role employees and authorises only on a unique match. Every
    other outcome (short PIN, no or several matches, a thrown call) denies. */
module ManagerAuth {
  import opened Schema
  import opened Rows
  import PinPad

  datatype Dialog = Dialog(pin: string, error: string)

  /** The dialog as it opens: empty PIN, no error. */
  function Open(): Dialog
  {
    Dialog("", "")
  }

  function Press(d: Dialog, key: char): Dialog
  {
    d.(pin := PinPad.Press(d.pin, key))
  }

  /** `handleClear`: back to the state the dialog opened in. */
  function Clear(d: Dialog): (r: Dialog)
    ensures r == Open()
    ensures r.pin == [] && r.error == []
  {
    Dialog("", "")
  }

  /** The rows the lookup selects: PIN and manager role both match. */
  function ManagersWithPin(employees: seq<Employee>, pin: string): seq<Employee>
  {
    Filter(employees, (e: Employee) => e.pin == pin && e.role == Manager)
  }

  datatype Attempt = Attempt(dialog: Dialog, authorized: bool)

  const ShortPinError := "PIN must be at least 4 digits"
  const InvalidPinError := "Invalid manager PIN"
  const FailedError := "Authentication failed"

  /** `handleAuth`. `reachable` is false when the awaited lookup throws. */
  function Submit(d: Dialog, employees: seq<Employee>, reachable: bool): (r: Attempt)
    ensures r.authorized <==>
      PinPad.LongEnough(d.pin) && reachable && |ManagersWithPin(employees, d.pin)| == 1
    ensures r.authorized ==>
      exists i :: 0 <= i < |employees| && employees[i].pin == d.pin && IsManager(employees[i].role)
    ensures !r.authorized ==> r.dialog.error != []
    ensures !PinPad.LongEnough(d.pin) ==> r.dialog == d.(error := ShortPinError)
    ensures PinPad.LongEnough(d.pin) && !reachable ==> r.dialog == d.(error := FailedError)
    ensures PinPad.LongEnough(d.pin) && reachable && !r.authorized ==> r.dialog == Dialog("", InvalidPinError)
  {
    if !PinPad.LongEnough(d.pin) then Attempt(d.(error := ShortPinError), false)
    else if !reachable then Attempt(Dialog(d.pin, FailedError), false)
    else
      match Single(ManagersWithPin(employees, d.pin))
      case NoRow => Attempt(Dialog("", InvalidPinError), false)
      case Row(_) =>
        var rows := ManagersWithPin(employees, d.pin);
        assert rows[0] in rows;
        Attempt(Dialog(d.pin, ""), true)
  }

  /** Fail-closed: with no manager holding the PIN, no PIN and no store state authorises. */
  lemma NoManagerNoAuthorization(d: Dialog, employees: seq<Employee>, reachable: bool)
    requires forall i :: 0 <= i < |employees| && employees[i].pin == d.pin ==> !IsManager(employees[i].role)
    ensures !Submit(d, employees, reachable).authorized
  {
  }

  /** `getActionText`. */
  function ActionText(action: string): (r: string)
    ensures action == "void" ==> r == "void this order"
    ensures action == "soldout" ==> r == "mark item as sold out"
    ensures action == "high_discount" ==> r == "apply discount over 20%"
    ensures r == "perform this action" <==> action != "void" && action != "soldout" && action != "high_discount"
  {
    if action == "void" then "void this order"
    else if action == "soldout" then "mark item as sold out"
    else if action == "high_discount" then "apply discount over 20%"
    else "perform this action"
  }
}

=== FILE: modifier_dialog.dfy ===
/** The modifier selector shown before a customisable item joins the ticket:
    radio groups (`maxSelections == 1`), capped checkbox groups, validation into
    an error list, the confirmation step and the price preview. */
module ModifierDialog {
  import opened Schema
  import opened ModMap
  import opened Rows

  predicate Selects(opts: seq<ModifierOption>, id: string)
  {
    exists i :: 0 <= i < |opts| && opts[i].id == id
  }

  /** Whether `opt` is currently ticked in group `m`. */
  predicate IsSelected(sel: ModifierMap, m: Modifier, opt: ModifierOption)
  {
    Selects(Lookup(sel, m.name), opt.id)
  }

  /** `filter(opt => opt.id !== id)`: the other options, in order, each as often as before. */
  function DropOption(opts: seq<ModifierOption>, id: string): (r: seq<ModifierOption>)
    ensures IsSubsequence(r, opts)
    ensures forall o :: multiset(r)[o] == if o.id != id then multiset(opts)[o] else 0
  {
    var p := (o: ModifierOption) => o.id != id;
    FilterIsSubsequence(opts, p);
    FilterMultiset(opts, p);
    Filter(opts, p)
  }

  /** `handleModifierChange`: radio semantics for single-choice groups, capped
      checkbox semantics otherwise. */
  function Toggle(sel: ModifierMap, m: Modifier, opt: ModifierOption, checked: bool): (r: ModifierMap)
    ensures forall g :: g != m.name ==> Lookup(r, g) == Lookup(sel, g)
    ensures m.maxSelections == 1 ==> Lookup(r, m.name) == (if checked then [opt] else [])
    ensures m.maxSelections != 1 && checked && |Lookup(sel, m.name)| >= m.maxSelections ==> r == sel
    ensures m.maxSelections != 1 && checked && |Lookup(sel, m.name)| < m.maxSelections ==>
      Lookup(r, m.name) == Lookup(sel, m.name) + [opt]
    ensures m.maxSelections != 1 && !checked ==> Lookup(r, m.name) == DropOption(Lookup(sel, m.name), opt.id)
    ensures m.maxSelections != 1 && !checked ==>
      forall o :: o in Lookup(r, m.name) <==> o in Lookup(sel, m.name) && o.id != opt.id
    ensures UniqueGroups(sel) ==> UniqueGroups(r)
    ensures KeepsKeyOrder(sel, r)
    ensures r == sel || r == Put(sel, m.name, Lookup(r, m.name))
  {
    var current := Lookup(sel, m.name);
    if m.maxSelections == 1 then
      PutKeepsUnique(sel, m.name, if checked then [opt] else []);
      Put(sel, m.name, if checked then [opt] else [])
    else if checked then
      if |current| < m.maxSelections then
        PutKeepsUnique(sel, m.name, current + [opt]);
        Put(sel, m.name, current + [opt])
      else sel
    else
      var kept := DropOption(current, opt.id);
      PutKeepsUnique(sel, m.name, kept);
      assert forall o :: o in kept <==> o in current && o.id != opt.id by {
        forall o ensures o in kept <==> o in current && o.id != opt.id {
          if o in kept {
            var i :| 0 <= i < |kept| && kept[i] == o;
          }
          if o in current && o.id != opt.id {
            var i :| 0 <= i < |current| && current[i] == o;
          }
        }
      }
      Put(sel, m.name, kept)
  }

  /** A click writes no group but the clicked one: the result's groups are the
      groups already written, plus that one once it is written. */
  lemma {:induction false} ToggleGroups(sel: ModifierMap, m: Modifier, opt: ModifierOption, checked: bool)
    ensures var r := Toggle(sel, m, opt, checked);
            forall g :: HasGroup(r, g) <==> HasGroup(sel, g) || (g == m.name && r != sel)
  {
    var r := Toggle(sel, m, opt, checked);
    if r != sel {
      PutGroups(sel, m.name, Lookup(r, m.name));
    }
  }

  /** A group's selection count does not exceed its maximum. */
  predicate WithinCap(sel: ModifierMap, m: Modifier)
  {
    |Lookup(sel, m.name)| <= m.maxSelections
  }

  predicate WithinCaps(groups: seq<Modifier>, sel: ModifierMap)
  {
    forall i :: 0 <= i < |groups| ==> WithinCap(sel, groups[i])
  }

  predicate NamesUnique(groups: seq<Modifier>)
  {
    forall i, j :: 0 <= i < j < |groups| ==> groups[i].name != groups[j].name
  }

  /** Toggling never pushes a group over its cap. */
  lemma ToggleRespectsCap(sel: ModifierMap, m: Modifier, opt: ModifierOption, checked: bool)
    requires WithinCap(sel, m)
    ensures WithinCap(Toggle(sel, m, opt, checked), m)
  {
    var current := Lookup(sel, m.name);
    if m.maxSelections != 1 && !checked {
      assert |DropOption(current, opt.id)| <= |current|;
    }
  }

  /** From a state within every cap, any toggle of any group of the item stays within every cap. */
  lemma ToggleKeepsCaps(groups: seq<Modifier>, sel: ModifierMap, k: int, opt: ModifierOption, checked: bool)
    requires NamesUnique(groups)
    requires 0 <= k < |groups|
    requires WithinCaps(groups, sel)
    ensures WithinCaps(groups, Toggle(sel, groups[k], opt, checked))
  {
    var r := Toggle(sel, groups[k], opt, checked);
    ToggleRespectsCap(sel, groups[k], opt, checked);
    forall i | 0 <= i < |groups| ensures WithinCap(r, groups[i]) {
      if i != k {
        assert groups[i].name != groups[k].name;
      }
    }
  }

  /** Selections are keyed by group name, so two groups of one item that share a
      name share one list: ticking under the looser cap can break the tighter one. */
  lemma SharedNameBreaksCaps(a: ModifierOption, b: ModifierOption, c: ModifierOption)
    ensures var loose := Modifier("m1", "Extras", 0.0, 3, false, [a, b, c]);
            var tight := Modifier("m2", "Extras", 0.0, 2, false, [a, b, c]);
            var sel := [Choice("Extras", [a, b])];
            && WithinCaps([loose, tight], sel)
            && !WithinCaps([loose, tight], Toggle(sel, loose, c, true))
  {
    var loose := Modifier("m1", "Extras", 0.0, 3, false, [a, b, c]);
    var tight := Modifier("m2", "Extras", 0.0, 2, false, [a, b, c]);
    var sel := [Choice("Extras", [a, b])];
    assert Lookup(sel, "Extras") == [a, b];
    var r := Toggle(sel, loose, c, true);
    assert Lookup(r, "Extras") == [a, b, c];
    assert !WithinCap(r, [loose, tight][1]);
  }

  /** `canSelect`: a checkbox is enabled while its group is under the cap, or when
      it is already ticked (so it can be unticked). */
  predicate CanSelect(sel: ModifierMap, m: Modifier, opt: ModifierOption)
    ensures m.maxSelections != 1 ==>
      (CanSelect(sel, m, opt) <==> Toggle(sel, m, opt, !IsSelected(sel, m, opt)) != sel)
  {
    ClickChanges(sel, m, opt);
    |Lookup(sel, m.name)| < m.maxSelections || IsSelected(sel, m, opt)
  }

  /** In a checkbox group, a click changes the selection exactly when the group is
      under its cap or the option is already ticked. */
  lemma ClickChanges(sel: ModifierMap, m: Modifier, opt: ModifierOption)
    ensures m.maxSelections != 1 ==>
      ((|Lookup(sel, m.name)| < m.maxSelections || IsSelected(sel, m, opt)) <==>
        Toggle(sel, m, opt, !IsSelected(sel, m, opt)) != sel)
  {
    if m.maxSelections != 1 {
      var current := Lookup(sel, m.name);
      var r := Toggle(sel, m, opt, !IsSelected(sel, m, opt));
      if IsSelected(sel, m, opt) {
        var i :| 0 <= i < |current| && current[i].id == opt.id;
        assert current[i] !in Lookup(r, m.name);
      } else if |current| < m.maxSelections {
        assert |Lookup(r, m.name)| == |current| + 1;
      }
    }
  }

  /** Clicking an enabled checkbox flips whether it is ticked; clicking a disabled
      one (which can only try to tick it) changes nothing. */
  lemma CheckboxClick(sel: ModifierMap, m: Modifier, opt: ModifierOption)
    requires m.maxSelections != 1
    ensures CanSelect(sel, m, opt) ==>
      IsSelected(Toggle(sel, m, opt, !IsSelected(sel, m, opt)), m, opt) == !IsSelected(sel, m, opt)
    ensures !CanSelect(sel, m, opt) ==> Toggle(sel, m, opt, true) == sel
  {
    var current := Lookup(sel, m.name);
    if CanSelect(sel, m, opt) {
      var r := Toggle(sel, m, opt, !IsSelected(sel, m, opt));
      if IsSelected(sel, m, opt) {
        forall i | 0 <= i < |Lookup(r, m.name)| ensures Lookup(r, m.name)[i].id != opt.id {
          assert Lookup(r, m.name)[i] in Lookup(r, m.name);
        }
      } else {
        assert Lookup(r, m.name)[|current|] == opt;
      }
    }
  }

  // ---------------------------------------------------------------- validation

  datatype ValidationError = Required(group: string) | TooMany(group: string, max: int)

  /** The message shown for an error. */
  function Message(e: ValidationError): string
  {
    match e
    case Required(g) => g + " is required"
    case TooMany(g, k) => g + " allows maximum " + IntToString(k) + " selections"
  }

  /** One message per error, in the order the errors were found. */
  function Messages(es: seq<ValidationError>): (r: seq<string>)
    ensures |r| == |es|
    ensures forall i :: 0 <= i < |es| ==> r[i] == Message(es[i])
  {
    if es == [] then [] else [Message(es[0])] + Messages(es[1..])
  }

  predicate GroupValid(m: Modifier, sel: ModifierMap)
  {
    !(m.required && |Lookup(sel, m.name)| == 0) && |Lookup(sel, m.name)| <= m.maxSelections
  }

  /** Whether `e` is an error group `m` raises. */
  predicate Raises(m: Modifier, sel: ModifierMap, e: ValidationError)
  {
    || (e == Required(m.name) && m.required && |Lookup(sel, m.name)| == 0)
    || (e == TooMany(m.name, m.maxSelections) && |Lookup(sel, m.name)| > m.maxSelections)
  }

  function GroupErrors(m: Modifier, sel: ModifierMap): seq<ValidationError>
  {
    var n := |Lookup(sel, m.name)|;
    (if m.required && n == 0 then [Required(m.name)] else [])
    + (if n > m.maxSelections then [TooMany(m.name, m.maxSelections)] else [])
  }

  /** `validateSelections`: the errors of every group, in group order. */
  function Validate(groups: seq<Modifier>, sel: ModifierMap): (r: seq<ValidationError>)
    ensures r == [] <==> forall i :: 0 <= i < |groups| ==> GroupValid(groups[i], sel)
    ensures forall i, e :: 0 <= i < |groups| && Raises(groups[i], sel, e) ==> e in r
    ensures forall e :: e in r ==> exists i :: 0 <= i < |groups| && Raises(groups[i], sel, e)
  {
    if groups == [] then []
    else
      var rest := Validate(groups[1..], sel);
      assert forall i :: 1 <= i < |groups| ==> groups[i] == groups[1..][i - 1];
      GroupErrors(groups[0], sel) + rest
  }

  datatype Confirmation = Confirmed(mods: ModifierMap) | Rejected(errors: seq<string>)

  /** `handleConfirm`, with the shortcut for an item without modifier groups,
      which confirms at once with an empty modifier object. */
  function Confirm(item: MenuItem, sel: ModifierMap): (r: Confirmation)
    ensures |item.modifiers| == 0 ==> r == Confirmed([])
    ensures |item.modifiers| > 0 ==>
      (r.Confirmed? <==> forall i :: 0 <= i < |item.modifiers| ==> GroupValid(item.modifiers[i], sel))
    ensures |item.modifiers| > 0 && r.Confirmed? ==> r.mods == sel
    ensures r.Rejected? ==> |r.errors| > 0
  {
    if |item.modifiers| == 0 then Confirmed([])
    else
      var errors := Validate(item.modifiers, sel);
      if errors == [] then Confirmed(sel) else Rejected(Messages(errors))
  }

  /** A required group left empty always blocks confirmation. */
  lemma RequiredGroupBlocks(item: MenuItem, sel: ModifierMap, k: int)
    requires 0 <= k < |item.modifiers|
    requires item.modifiers[k].required && |Lookup(sel, item.modifiers[k].name)| == 0
    ensures Confirm(item, sel).Rejected?
    ensures Required(item.modifiers[k].name) in Validate(item.modifiers, sel)
  {
    assert Raises(item.modifiers[k], sel, Required(item.modifiers[k].name));
  }

  // ---------------------------------------------------------------- price

  /** `calculateTotalPrice`: the preview shown in the dialog, the item's price plus
      every ticked option's price. */
  function PreviewPrice(item: MenuItem, sel: ModifierMap): (r: real)
    ensures r == item.price + GroupsPrice(sel)
  {
    PriceByGroups(sel);
    UnitPrice(item, sel)
  }

  /** Reference sum, group by group, of the ticked options' prices. */
  function GroupsPrice(sel: ModifierMap): real
  {
    if sel == [] then 0.0 else OptionsPrice(sel[0].options) + GroupsPrice(sel[1..])
  }

  lemma {:induction false} PriceByGroups(sel: ModifierMap)
    ensures Price(sel) == GroupsPrice(sel)
  {
    if sel != [] {
      PriceByGroups(sel[1..]);
      OptionsPriceAppend(sel[0].options, Flatten(sel[1..]));
    }
  }

  /** Ticking an option in a checkbox group under its cap raises the preview by
      exactly that option's price. */
  lemma PreviewAfterCheck(item: MenuItem, sel: ModifierMap, m: Modifier, opt: ModifierOption)
    requires UniqueGroups(sel)
    requires m.maxSelections != 1 && |Lookup(sel, m.name)| < m.maxSelections
    ensures PreviewPrice(item, Toggle(sel, m, opt, true)) == PreviewPrice(item, sel) + opt.price
  {
    var current := Lookup(sel, m.name);
    PricePut(sel, m.name, current + [opt]);
    OptionsPriceAppend(current, [opt]);
    assert OptionsPrice([opt]) == opt.price + OptionsPrice([]);
  }

  // ---------------------------------------------------------------- text

  function DigitChar(d: int): char
    requires 0 <= d < 10
  {
    "0123456789"[d]
  }

  function NatToString(n: nat): string
  {
    if n < 10 then [DigitChar(n)] else NatToString(n / 10) + [DigitChar(n % 10)]
  }

  function IntToString(i: int): string
  {
    if i < 0 then "-" + NatToString(-i) else NatToString(i)
  }
}

=== FILE: modmap.dfy ===
/** The modifier object `{ [group]: ModifierOption[] }` as an ordered list of
    choices. Reading a missing group gives the empty list (`sel[group] || []`);
    writing a group (`{ ...sel, [group]: v }`) replaces it in place or appends it, so
    the groups already written keep their order. */
module ModMap {
  import opened Schema

  predicate HasGroup(m: ModifierMap, group: string)
  {
    exists i :: 0 <= i < |m| && m[i].group == group
  }

  predicate UniqueGroups(m: ModifierMap)
  {
    forall i, j :: 0 <= i < j < |m| ==> m[i].group != m[j].group
  }

  /** The options chosen in `group`; empty when the group was never written. */
  function Lookup(m: ModifierMap, group: string): (r: seq<ModifierOption>)
    ensures !HasGroup(m, group) ==> r == []
    ensures forall i :: 0 <= i < |m| && m[i].group == group && FirstWith(m, group, i) ==> r == m[i].options
  {
    if m == [] then []
    else if m[0].group == group then m[0].options
    else
      HasGroupCons(m);
      assert forall i :: 1 <= i < |m| ==> m[i] == m[1..][i - 1];
      assert forall i :: 1 <= i < |m| && FirstWith(m, group, i) ==> FirstWith(m[1..], group, i - 1);
      Lookup(m[1..], group)
  }

  /** No choice before position i carries `group`. */
  predicate FirstWith(m: ModifierMap, group: string, i: int)
    requires 0 <= i <= |m|
  {
    forall j :: 0 <= j < i ==> m[j].group != group
  }

  /** `r` lists the groups of `m` first, at the same positions: the key order of
      `m` survives in `r`. */
  predicate KeepsKeyOrder(m: ModifierMap, r: ModifierMap)
  {
    |m| <= |r| && forall i :: 0 <= i < |m| ==> r[i].group == m[i].group
  }

  /** Writes `group := opts`, keeping the position of an existing group. */
  function Put(m: ModifierMap, group: string, opts: seq<ModifierOption>): (r: ModifierMap)
    ensures Lookup(r, group) == opts
    ensures forall g :: g != group ==> Lookup(r, g) == Lookup(m, g)
    ensures KeepsKeyOrder(m, r)
    ensures HasGroup(m, group) ==> |r| == |m|
    ensures !HasGroup(m, group) ==> r == m + [Choice(group, opts)]
  {
    if m == [] then [Choice(group, opts)]
    else if m[0].group == group then
      var r := [Choice(group, opts)] + m[1..];
      assert r[1..] == m[1..];
      assert forall i :: 1 <= i < |m| ==> r[i] == m[i];
      r
    else
      var t := Put(m[1..], group, opts);
      var r := [m[0]] + t;
      assert r[1..] == t;
      assert forall i :: 1 <= i < |m| ==> r[i] == t[i - 1] && m[i] == m[1..][i - 1];
      HasGroupCons(m);
      r
  }

  /** Writing a group adds exactly that group to the keys. */
  lemma {:induction false} PutGroups(m: ModifierMap, group: string, opts: seq<ModifierOption>)
    ensures forall g :: HasGroup(Put(m, group, opts), g) <==> HasGroup(m, g) || g == group
  {
    var r := Put(m, group, opts);
    if m == [] {
      assert r[0].group == group;
    } else if m[0].group == group {
      assert r[1..] == m[1..];
      HasGroupCons(m);
      HasGroupCons(r);
    } else {
      PutGroups(m[1..], group, opts);
      assert r[1..] == Put(m[1..], group, opts);
      HasGroupCons(m);
      HasGroupCons(r);
    }
  }

  /** Writing a group never introduces a duplicate key. */
  lemma {:induction false} PutKeepsUnique(m: ModifierMap, group: string, opts: seq<ModifierOption>)
    ensures UniqueGroups(m) ==> UniqueGroups(Put(m, group, opts))
  {
    var r := Put(m, group, opts);
    if !UniqueGroups(m) || m == [] {
    } else if m[0].group == group {
      assert r[1..] == m[1..];
    } else {
      UniqueTail(m);
      PutKeepsUnique(m[1..], group, opts);
      PutGroups(m[1..], group, opts);
      var t := Put(m[1..], group, opts);
      assert r == [m[0]] + t;
      forall i | 0 <= i < |m[1..]| ensures m[1..][i].group != m[0].group {
        assert m[1..][i] == m[i+1];
      }
      assert !HasGroup(t, m[0].group);
      forall i, j | 0 <= i < j < |r| ensures r[i].group != r[j].group {
        if i == 0 {
          assert r[j] == t[j-1];
        } else {
          assert r[i] == t[i-1] && r[j] == t[j-1];
        }
      }
    }
  }

  lemma UniqueTail(m: ModifierMap)
    requires m != [] && UniqueGroups(m)
    ensures UniqueGroups(m[1..])
  {
    forall i, j | 0 <= i < j < |m[1..]| ensures m[1..][i].group != m[1..][j].group {
      assert m[1..][i] == m[i+1] && m[1..][j] == m[j+1];
    }
  }

  lemma HasGroupCons(m: ModifierMap)
    requires m != []
    ensures forall g :: HasGroup(m, g) <==> m[0].group == g || HasGroup(m[1..], g)
  {
    forall g ensures HasGroup(m, g) <==> m[0].group == g || HasGroup(m[1..], g) {
      if HasGroup(m, g) && m[0].group != g {
        var i :| 0 <= i < |m| && m[i].group == g;
        assert m[1..][i-1].group == g;
      }
      if HasGroup(m[1..], g) {
        var i :| 0 <= i < |m[1..]| && m[1..][i].group == g;
        assert m[i+1].group == g;
      }
    }
  }

  /** `Object.values(m).flat()`: every chosen option, group by group. */
  function Flatten(m: ModifierMap): seq<ModifierOption>
  {
    if m == [] then [] else m[0].options + Flatten(m[1..])
  }

  function OptionsPrice(opts: seq<ModifierOption>): real
  {
    if opts == [] then 0.0 else opts[0].price + OptionsPrice(opts[1..])
  }

  /** Sum of the prices of every chosen option across all groups. */
  function Price(m: ModifierMap): real
  {
    OptionsPrice(Flatten(m))
  }

  /** The price of one unit of `item` customised with `m`. */
  function UnitPrice(item: MenuItem, m: ModifierMap): real
  {
    item.price + Price(m)
  }

  lemma {:induction false} OptionsPriceAppend(a: seq<ModifierOption>, b: seq<ModifierOption>)
    ensures OptionsPrice(a + b) == OptionsPrice(a) + OptionsPrice(b)
  {
    if a == [] {
      assert a + b == b;
    } else {
      assert (a + b)[1..] == a[1..] + b;
      OptionsPriceAppend(a[1..], b);
    }
  }

  /** Writing one group changes the total option price by the difference between
      the new and the old options of that group, and by nothing else. */
  lemma {:induction false} PricePut(m: ModifierMap, group: string, opts: seq<ModifierOption>)
    requires UniqueGroups(m)
    ensures Price(Put(m, group, opts)) == Price(m) - OptionsPrice(Lookup(m, group)) + OptionsPrice(opts)
  {
    if m == [] {
      assert Flatten([Choice(group, opts)]) == opts + [];
      assert opts + [] == opts;
    } else if m[0].group == group {
      var r := [Choice(group, opts)] + m[1..];
      assert r[1..] == m[1..];
      OptionsPriceAppend(opts, Flatten(m[1..]));
      OptionsPriceAppend(m[0].options, Flatten(m[1..]));
    } else {
      UniqueTail(m);
      PricePut(m[1..], group, opts);
      var r := Put(m, group, opts);
      assert r == [m[0]] + Put(m[1..], group, opts);
      assert r[1..] == Put(m[1..], group, opts);
      OptionsPriceAppend(m[0].options, Flatten(m[1..]));
      OptionsPriceAppend(m[0].options, Flatten(r[1..]));
    }
  }
}

=== FILE: payment.dfy ===
/** The payment dialog: discount (with the manager gate above 20%), tip presets
    and custom tips, the final total, the tender check that enables "Complete
    Payment", change due, and the payment record and discount log it emits.
    `total` throughout is the ticket total (subtotal plus tax) handed in. */
module Payment {
  import opened Schema
  import ManagerAuth

  datatype TipType = Percent | Amount

  /** A number input's text: empty, or the number the browser accepted. */
  datatype Field = Blank | Typed(value: real)

  /** `Number.parseFloat(text) || 0`. */
  function OrZero(f: Field): (r: real)
    ensures r == OrElse(f, 0.0)
    ensures f.Typed? ==> r == f.value
  {
    match f
    case Blank => 0.0
    case Typed(v) => v
  }

  /** `Number.parseFloat(text) || fallback`: 0 is falsy, so a typed 0 also falls back. */
  function OrElse(f: Field, fallback: real): (r: real)
    ensures f.Typed? && f.value != 0.0 ==> r == f.value
    ensures f.Blank? || f == Typed(0.0) ==> r == fallback
  {
    match f
    case Blank => fallback
    case Typed(v) => if v == 0.0 then fallback else v
  }

  datatype State = State(
    paymentType: PaymentType,
    tipAmount: real,
    tipType: TipType,
    customTip: Field,
    discountPercent: real,
    customDiscount: Field,
    cashAmount: Field,
    cardAmount: Field,
    awaitingAuth: bool,
    pendingDiscount: real)

  /** The dialog as it opens: card payment, no tip, no discount. */
  function Initial(): (r: State)
    ensures r.paymentType == Card && r.tipAmount == 0.0 && r.discountPercent == 0.0 && !r.awaitingAuth
    ensures forall total :: FinalTotal(r, total) == total
  {
    State(Card, 0.0, Percent, Blank, 0.0, Blank, Blank, Blank, false, 0.0)
  }

  /** Discounts above this percentage need a manager unless the operator is one. */
  const DiscountAuthThreshold: real := 20.0

  // ---------------------------------------------------------------- tips

  /** `handleTipPreset`: a percentage of the pre-discount total. */
  function TipPreset(st: State, total: real, percent: real): (r: State)
    ensures r.tipAmount == total * percent / 100.0
    ensures r.tipType == Percent && r.customTip == Blank
    ensures r.(tipAmount := st.tipAmount, tipType := st.tipType, customTip := st.customTip) == st
  {
    st.(tipType := Percent, tipAmount := total * (percent / 100.0), customTip := Blank)
  }

  /** "No Tip": the tip and the custom field are cleared; the mode is kept. */
  function NoTip(st: State): (r: State)
    ensures r.tipAmount == 0.0 && r.customTip == Blank
    ensures r.(tipAmount := st.tipAmount, customTip := st.customTip) == st
  {
    st.(tipAmount := 0.0, customTip := Blank)
  }

  /** `handleCustomTip`: a percentage of the pre-discount total or a flat amount,
      by the current mode; an empty field counts as 0. */
  function CustomTip(st: State, total: real, value: Field): (r: State)
    ensures st.tipType == Percent ==> r.tipAmount == total * OrZero(value) / 100.0
    ensures st.tipType == Amount ==> r.tipAmount == OrZero(value)
    ensures value.Blank? ==> r.tipAmount == 0.0
    ensures r.customTip == value
    ensures r.(tipAmount := st.tipAmount, customTip := st.customTip) == st
  {
    var amount := OrZero(value);
    st.(customTip := value, tipAmount := if st.tipType == Percent then total * (amount / 100.0) else amount)
  }

  // ---------------------------------------------------------------- discount

  /** Whether a discount entry must wait for a manager. */
  predicate NeedsManager(discount: real, role: Role)
    ensures IsManager(role) ==> !NeedsManager(discount, role)
    ensures !IsManager(role) ==> (NeedsManager(discount, role) <==> discount > 20.0)
  {
    discount > DiscountAuthThreshold && !IsManager(role)
  }

  /** `handleDiscountChange`. */
  function DiscountChange(st: State, role: Role, value: Field): (r: State)
    ensures NeedsManager(OrZero(value), role) ==>
      && r.discountPercent == st.discountPercent
      && r.pendingDiscount == OrZero(value)
      && r.awaitingAuth
    ensures !NeedsManager(OrZero(value), role) ==>
      && r.discountPercent == OrZero(value)
      && r.pendingDiscount == st.pendingDiscount
      && r.awaitingAuth == st.awaitingAuth
    ensures IsManager(role) ==> r.discountPercent == OrZero(value) && r.awaitingAuth == st.awaitingAuth
    ensures r.customDiscount == value
    ensures r.(discountPercent := st.discountPercent, pendingDiscount := st.pendingDiscount,
               awaitingAuth := st.awaitingAuth, customDiscount := st.customDiscount) == st
  {
    var discount := OrZero(value);
    var st1 := st.(customDiscount := value);
    if NeedsManager(discount, role) then st1.(pendingDiscount := discount, awaitingAuth := true)
    else st1.(discountPercent := discount)
  }

  /** The dialog's `handleManagerAuthSuccess`: the pending discount takes effect. */
  function AuthSuccess(st: State): (r: State)
    ensures r.discountPercent == st.pendingDiscount
    ensures r.pendingDiscount == 0.0 && !r.awaitingAuth
    ensures r.(discountPercent := st.discountPercent, pendingDiscount := st.pendingDiscount,
               awaitingAuth := st.awaitingAuth) == st
  {
    st.(discountPercent := st.pendingDiscount, awaitingAuth := false, pendingDiscount := 0.0)
  }

  /** Cancelling the manager dialog drops the pending discount and the typed value. */
  function AuthCancel(st: State): (r: State)
    ensures r.discountPercent == st.discountPercent
    ensures r.pendingDiscount == 0.0 && !r.awaitingAuth && r.customDiscount == Blank
    ensures r.(pendingDiscount := st.pendingDiscount, awaitingAuth := st.awaitingAuth,
               customDiscount := st.customDiscount) == st
  {
    st.(awaitingAuth := false, pendingDiscount := 0.0, customDiscount := Blank)
  }

  /** A PIN submitted in the manager dialog opened for a pending discount. */
  function SubmitManagerPin(st: State, d: ManagerAuth.Dialog, employees: seq<Employee>, reachable: bool): (r: (State, ManagerAuth.Dialog))
    ensures r.1 == ManagerAuth.Submit(d, employees, reachable).dialog
    ensures ManagerAuth.Submit(d, employees, reachable).authorized ==>
      r.0.discountPercent == st.pendingDiscount && !r.0.awaitingAuth
    ensures !ManagerAuth.Submit(d, employees, reachable).authorized ==> r.0 == st
  {
    var attempt := ManagerAuth.Submit(d, employees, reachable);
    if attempt.authorized then (AuthSuccess(st), attempt.dialog) else (st, attempt.dialog)
  }

  /** A discount over 20% typed by a non-manager takes effect only through a
      manager PIN: whatever PIN is submitted, the discount afterwards is the typed
      one when the PIN authorised and the old one otherwise. */
  lemma HighDiscountNeedsManager(st: State, role: Role, value: Field, d: ManagerAuth.Dialog, employees: seq<Employee>, reachable: bool)
    requires NeedsManager(OrZero(value), role)
    ensures var pending := DiscountChange(st, role, value);
            var (after, _) := SubmitManagerPin(pending, d, employees, reachable);
            && pending.discountPercent == st.discountPercent
            && (ManagerAuth.Submit(d, employees, reachable).authorized ==> after.discountPercent == OrZero(value))
            && (!ManagerAuth.Submit(d, employees, reachable).authorized ==> after.discountPercent == st.discountPercent)
            && (after.discountPercent != st.discountPercent ==>
                  exists i :: 0 <= i < |employees| && employees[i].pin == d.pin && IsManager(employees[i].role))
  {
  }

  // ---------------------------------------------------------------- totals

  /** `calculateFinalTotal`: the discount applies to the pre-tip total. */
  function FinalTotal(st: State, total: real): (r: real)
    ensures st.discountPercent == 0.0 ==> r == total + st.tipAmount
    ensures 0.0 <= st.discountPercent <= 100.0 && total >= 0.0 ==> st.tipAmount <= r <= total + st.tipAmount
    ensures st.discountPercent == 100.0 ==> r == st.tipAmount
  {
    DiscountWithinTotal(total, st.discountPercent);
    var discountAmount := total * (st.discountPercent / 100.0);
    total - discountAmount + st.tipAmount
  }

  /** A percentage between 0 and 100 of a non-negative total lies between 0 and the total. */
  lemma DiscountWithinTotal(total: real, percent: real)
    ensures 0.0 <= percent <= 100.0 && total >= 0.0 ==> 0.0 <= total * (percent / 100.0) <= total
  {
    if 0.0 <= percent <= 100.0 && total >= 0.0 {
      var fraction := percent / 100.0;
      assert 0.0 <= fraction <= 1.0;
      assert total * fraction <= total * 1.0;
    }
  }

  /** The final total is the total scaled by (1 - discount/100), plus the tip,
      which the discount never reduces. */
  lemma FinalTotalShape(st: State, total: real)
    ensures FinalTotal(st, total) == total * (1.0 - st.discountPercent / 100.0) + st.tipAmount
    ensures FinalTotal(st, total) - st.tipAmount == FinalTotal(st.(tipAmount := 0.0), total)
  {
  }

  /** The "Complete Payment" button's disabled condition. */
  predicate SubmitDisabled(st: State, finalTotal: real)
    ensures SubmitDisabled(st, finalTotal) ==> st.paymentType != Card
    ensures SubmitDisabled(st, finalTotal) && st.paymentType == Cash && st.cashAmount.Typed? ==>
      st.cashAmount.value < finalTotal
  {
    || (st.paymentType == Cash && (st.cashAmount.Blank? || st.cashAmount.value < finalTotal))
    || (st.paymentType == Split &&
         (st.cashAmount.Blank? || st.cardAmount.Blank? || st.cashAmount.value + st.cardAmount.value < finalTotal))
  }

  /** Completion is enabled exactly when the tender covers the final total: cash
      alone, or cash plus card for a split; a card payment is never blocked. */
  lemma TenderGate(st: State, finalTotal: real)
    ensures st.paymentType == Card ==> !SubmitDisabled(st, finalTotal)
    ensures st.paymentType == Cash ==>
      (!SubmitDisabled(st, finalTotal) <==> st.cashAmount.Typed? && st.cashAmount.value >= finalTotal)
    ensures st.paymentType == Split ==>
      (!SubmitDisabled(st, finalTotal) <==>
         st.cashAmount.Typed? && st.cardAmount.Typed? && st.cashAmount.value + st.cardAmount.value >= finalTotal)
  {
  }

  /** A preset tip and the same percentage typed as a custom percentage tip give
      the same tip. */
  lemma CustomPercentMatchesPreset(st: State, total: real, percent: real)
    ensures CustomTip(st.(tipType := Percent), total, Typed(percent)).tipAmount == TipPreset(st, total, percent).tipAmount
  {
  }

  /** Whatever the discount, choosing a preset instead of no tip raises the final
      total by exactly that percentage of the pre-discount total. */
  lemma PresetTipAddsToFinal(st: State, total: real, percent: real)
    ensures FinalTotal(TipPreset(st, total, percent), total) == FinalTotal(NoTip(st), total) + total * percent / 100.0
  {
  }

  /** Change due, shown for a cash payment once an amount is typed. */
  function ChangeDue(st: State, finalTotal: real): (r: Option<real>)
    ensures r.Some? <==> st.paymentType == Cash && st.cashAmount.Typed?
    ensures r.Some? ==> r.value >= 0.0 && r.value >= st.cashAmount.value - finalTotal
    ensures r.Some? ==> r.value == 0.0 || r.value == st.cashAmount.value - finalTotal
  {
    if st.paymentType == Cash && st.cashAmount.Typed? then
      var change := st.cashAmount.value - finalTotal;
      Some(if change > 0.0 then change else 0.0)
    else None
  }

  /** Whenever a cash payment can be completed, the change due plus the final
      total is exactly the cash tendered. */
  lemma ChangeCompletesTender(st: State, finalTotal: real)
    requires st.paymentType == Cash && !SubmitDisabled(st, finalTotal)
    ensures ChangeDue(st, finalTotal).Some?
    ensures ChangeDue(st, finalTotal).value + finalTotal == st.cashAmount.value
  {
  }

  // ---------------------------------------------------------------- completion

  datatype PaymentRecord = PaymentRecord(
    paymentType: PaymentType,
    subtotal: real,
    tax: real,
    total: real,
    tip: real,
    discountPercent: real,
    cashAmount: real,
    cardAmount: real)

  datatype Completion = Completion(log: Option<OverrideLog>, record: PaymentRecord)

  /** `handlePayment`: the discount log entry (only for a discount) and the
      payment record handed to the register. */
  function Complete(st: State, subtotal: real, tax: real, total: real, employee: Employee, now: int): (r: Completion)
    ensures r.log.Some? <==> st.discountPercent > 0.0
    ensures r.log.Some? ==>
      && r.log.value.action == "discount_applied"
      && r.log.value.employeeId == employee.id
      && r.log.value.shiftId == employee.currentShiftId
      && r.log.value.discountPercent == Some(st.discountPercent)
      && r.log.value.amount == Some(total * st.discountPercent / 100.0)
    ensures r.record.total == FinalTotal(st, total) && r.record.tip == st.tipAmount
    ensures r.record.subtotal == subtotal && r.record.tax == tax
    ensures r.record.discountPercent == st.discountPercent && r.record.paymentType == st.paymentType
    ensures st.paymentType == Card ==> r.record.cashAmount == 0.0
    ensures st.paymentType == Cash ==> r.record.cardAmount == 0.0
    ensures st.paymentType != Card ==> r.record.cashAmount == OrZero(st.cashAmount)
    ensures st.paymentType != Cash ==> r.record.cardAmount == OrElse(st.cardAmount, FinalTotal(st, total))
  {
    var finalTotal := FinalTotal(st, total);
    var log :=
      if st.discountPercent > 0.0 then
        Some(OverrideLog(employee.id, "discount_applied", None, Some(st.discountPercent),
                         Some(total * (st.discountPercent / 100.0)), Some("Manual discount"), now, employee.currentShiftId))
      else None;
    var cash := if st.paymentType == Card then 0.0 else OrZero(st.cashAmount);
    var card := if st.paymentType == Cash then 0.0 else OrElse(st.cardAmount, finalTotal);
    Completion(log, PaymentRecord(st.paymentType, subtotal, tax, finalTotal, st.tipAmount, st.discountPercent, cash, card))
  }

  /** A card payment with no amount typed records the whole final total on the card. */
  lemma CardDefaultsToFinalTotal(st: State, subtotal: real, tax: real, total: real, employee: Employee, now: int)
    requires st.paymentType == Card && st.cardAmount.Blank?
    ensures Complete(st, subtotal, tax, total, employee, now).record.cardAmount == FinalTotal(st, total)
    ensures Complete(st, subtotal, tax, total, employee, now).record.cashAmount == 0.0
  {
  }

  /** The checkout walk-through: a $19.44 ticket, a 25% discount authorised by a
      manager, and a 15% preset tip give a final total of $17.496 before rounding. */
  lemma AuthorisedDiscountScenario(d: ManagerAuth.Dialog, employees: seq<Employee>)
    requires |d.pin| >= MinPinLength
    requires |ManagerAuth.ManagersWithPin(employees, d.pin)| == 1
    ensures var typed := DiscountChange(Initial(), Cashier, Typed(25.0));
            var (authorised, _) := SubmitManagerPin(typed, d, employees, true);
            var tipped := TipPreset(authorised, 19.44, 15.0);
            && typed.awaitingAuth && typed.discountPercent == 0.0
            && authorised.discountPercent == 25.0
            && FinalTotal(tipped, 19.44) == 17.496
  {
  }
}

=== FILE: pin_login.dfy ===
/** The login screen: a PIN keypad whose submission looks the employee up by PIN
    and, for an employee still clocked in on a shift that has run more than nine
    hours, closes that shift and clocks the employee out before logging in. */
module PinLogin {
  import opened Schema
  import opened Rows
  import PinPad
  import Shifts

  datatype Screen = Screen(pin: string, error: string)

  function Open(): Screen
  {
    Screen("", "")
  }

  function Press(scr: Screen, key: char): Screen
  {
    scr.(pin := PinPad.Press(scr.pin, key))
  }

  /** `handleClear`: PIN and error are both emptied. */
  function Clear(scr: Screen): (r: Screen)
    ensures r.pin == [] && r.error == []
  {
    Open()
  }

  const ShortPinError := "PIN must be at least 4 digits"
  const InvalidPinError := "Invalid PIN"
  const FailedError := "Login failed"

  /** A shift open for more than this many hours is closed at login. */
  const AutoClockOutHours: real := 9.0

  /** `select("*").eq("pin", pin).single()`: an employee of any role. */
  function FindByPin(employees: seq<Employee>, pin: string): SingleRow<Employee>
  {
    Single(Filter(employees, (e: Employee) => e.pin == pin))
  }

  /** More than nine hours lie between `from` and `to`, measured as `handleLogin`
      does, in hours; equivalently, more than nine hours of milliseconds. */
  predicate OverNineHours(from: int, to: int)
    ensures OverNineHours(from, to) <==> to - from > 9 * MsPerHour
  {
    HoursOver(from, to, 9);
    HoursBetween(from, to) > AutoClockOutHours
  }

  /** The employee is clocked in on a recorded shift that has run more than nine hours. */
  predicate Overdue(store: Store, e: Employee, now: int)
    ensures Overdue(store, e, now) <==>
      && e.isClockedIn && Truthy(e.currentShiftId)
      && Shifts.FindShift(store.shifts, e.currentShiftId.value).Row?
      && now - Shifts.FindShift(store.shifts, e.currentShiftId.value).value.clockIn > 9 * MsPerHour
  {
    && e.isClockedIn && Truthy(e.currentShiftId)
    && Shifts.FindShift(store.shifts, e.currentShiftId.value).Row?
    && OverNineHours(Shifts.FindShift(store.shifts, e.currentShiftId.value).value.clockIn, now)
  }

  /** The automatic clock-out step of `handleLogin`: an overdue shift is closed
      with the hours it ran, the employee row is clocked out, and the employee
      handed to the register is clocked out too. Otherwise nothing changes. */
  function AutoClockOut(store: Store, e: Employee, now: int): (r: (Store, Employee))
    ensures |r.0.shifts| == |store.shifts|
    ensures !Overdue(store, e, now) ==> r == (store, e)
    ensures Overdue(store, e, now) ==>
      && r.1 == e.(isClockedIn := false, currentShiftId := None)
      && r.0 == store.(shifts := r.0.shifts, employees := Shifts.SetClock(store.employees, e.id, false, None))
      && forall j :: 0 <= j < |store.shifts| && store.shifts[j].id == e.currentShiftId.value ==>
           && r.0.shifts[j] == store.shifts[j].(clockOut := Some(now), totalHours := Some(HoursBetween(store.shifts[j].clockIn, now)))
           && Shifts.HoursRecorded(r.0.shifts[j])
    ensures forall j :: 0 <= j < |store.shifts| && !(Truthy(e.currentShiftId) && store.shifts[j].id == e.currentShiftId.value) ==>
      r.0.shifts[j] == store.shifts[j]
  {
    if Overdue(store, e, now) then
      var shiftId := e.currentShiftId.value;
      var hours := HoursBetween(Shifts.FindShift(store.shifts, shiftId).value.clockIn, now);
      Shifts.CloseShiftRecordsHours(store.shifts, shiftId, now);
      (store.(shifts := Shifts.CloseShift(store.shifts, shiftId, now, hours),
              employees := Shifts.SetClock(store.employees, e.id, false, None)),
       e.(isClockedIn := false, currentShiftId := None))
    else (store, e)
  }

  /** `e` is an employee row holding `pin`, as read or as clocked out at login. */
  predicate LookedUp(employees: seq<Employee>, pin: string, e: Employee)
  {
    exists j :: 0 <= j < |employees| && employees[j].pin == pin &&
      (e == employees[j] || e == employees[j].(isClockedIn := false, currentShiftId := None))
  }

  datatype Outcome = Outcome(screen: Screen, store: Store, loggedIn: Option<Employee>)

  /** `handleLogin`. `reachable` is false when the awaited employee lookup throws. */
  function Login(scr: Screen, store: Store, now: int, reachable: bool): (r: Outcome)
    ensures r.loggedIn.Some? <==>
      PinPad.LongEnough(scr.pin) && reachable && |Filter(store.employees, (e: Employee) => e.pin == scr.pin)| == 1
    ensures r.loggedIn.Some? ==> LookedUp(store.employees, scr.pin, r.loggedIn.value)
    ensures r.loggedIn.Some? ==> (r.store, r.loggedIn.value) == AutoClockOut(store, FindByPin(store.employees, scr.pin).value, now)
    ensures r.loggedIn.Some? ==> r.screen == Screen(scr.pin, "")
    ensures r.loggedIn.None? ==> r.store == store && r.screen.error != []
    ensures !PinPad.LongEnough(scr.pin) ==> r.screen == scr.(error := ShortPinError)
    ensures PinPad.LongEnough(scr.pin) && !reachable ==> r.screen == Screen(scr.pin, FailedError)
    ensures PinPad.LongEnough(scr.pin) && reachable && r.loggedIn.None? ==> r.screen == Screen("", InvalidPinError)
  {
    if !PinPad.LongEnough(scr.pin) then Outcome(scr.(error := ShortPinError), store, None)
    else if !reachable then Outcome(Screen(scr.pin, FailedError), store, None)
    else
      match FindByPin(store.employees, scr.pin)
      case NoRow => Outcome(Screen("", InvalidPinError), store, None)
      case Row(e) =>
        assert e in Filter(store.employees, (e: Employee) => e.pin == scr.pin);
        var (store1, e1) := AutoClockOut(store, e, now);
        Outcome(Screen(scr.pin, ""), store1, Some(e1))
  }

  /** A shift at exactly nine hours (or less) is left open: no store change, and
      the employee logs in with the clock state the table holds. */
  lemma NineHoursIsNotOverdue(store: Store, e: Employee, now: int)
    requires Truthy(e.currentShiftId)
    requires Shifts.FindShift(store.shifts, e.currentShiftId.value).Row?
    requires now - Shifts.FindShift(store.shifts, e.currentShiftId.value).value.clockIn <= 9 * MsPerHour
    ensures AutoClockOut(store, e, now) == (store, e)
  {
    var from := Shifts.FindShift(store.shifts, e.currentShiftId.value).value.clockIn;
    HoursAtMost(from, now, 9);
  }

  /** More than `n` hours pass exactly when more than `n` hours of milliseconds pass. */
  lemma HoursOver(from: int, to: int, n: int)
    ensures HoursBetween(from, to) > n as real <==> to - from > n * MsPerHour
  {
    if to - from > n * MsPerHour {
      assert (to - from) as real > n as real * MsPerHour as real;
    } else {
      HoursAtMost(from, to, n);
    }
  }

  /** `HoursBetween` is at most `n` when at most `n` hours of milliseconds pass. */
  lemma HoursAtMost(from: int, to: int, n: int)
    requires to - from <= n * MsPerHour
    ensures HoursBetween(from, to) <= n as real
  {
    assert (to - from) as real <= n as real * MsPerHour as real;
  }

  /** Logging in as an employee whose shift has run more than nine hours closes
      that shift at the login time with the hours it ran and clocks the employee
      out; any other login changes no table. */
  lemma LoginClosesOverdueShift(scr: Screen, store: Store, now: int, reachable: bool)
    requires PinPad.LongEnough(scr.pin) && reachable
    requires FindByPin(store.employees, scr.pin).Row?
    ensures var e := FindByPin(store.employees, scr.pin).value;
            var r := Login(scr, store, now, reachable);
            && r.loggedIn.Some?
            && (Overdue(store, e, now) ==>
                  && r.loggedIn.value == e.(isClockedIn := false, currentShiftId := None)
                  && r.store.employees == Shifts.SetClock(store.employees, e.id, false, None)
                  && forall j :: 0 <= j < |store.shifts| && store.shifts[j].id == e.currentShiftId.value ==>
                       && r.store.shifts[j] == store.shifts[j].(clockOut := Some(now), totalHours := Some(HoursBetween(store.shifts[j].clockIn, now)))
                       && Shifts.HoursRecorded(r.store.shifts[j]))
            && (!Overdue(store, e, now) ==> r.store == store && r.loggedIn.value == e)
  {
  }

  /** Login keeps the store's clock states consistent, and the employee handed to
      the register is consistent too. */
  lemma LoginKeepsClockConsistent(scr: Screen, store: Store, now: int, reachable: bool)
    requires Shifts.AllClockConsistent(store.employees)
    ensures var r := Login(scr, store, now, reachable);
            && Shifts.AllClockConsistent(r.store.employees)
            && (r.loggedIn.Some? ==> Shifts.ClockConsistent(r.loggedIn.value))
  {
    var r := Login(scr, store, now, reachable);
    if r.loggedIn.Some? {
      var e := FindByPin(store.employees, scr.pin).value;
      assert e in Filter(store.employees, (e: Employee) => e.pin == scr.pin);
      Shifts.SetClockKeepsConsistent(store.employees, e.id, false, None);
    }
  }
}

=== FILE: pin_pad.dfy ===
/** The digit buffer behind every PIN keypad (manager authorisation, login,
    timeclock): a key press appends while the buffer holds fewer than six
    characters, and submission needs at least four. */
module PinPad {
  import opened Schema

  /** `handlePinInput`. */
  function Press(pin: string, key: char): (r: string)
    ensures |pin| < MaxPinLength ==> r == pin + [key]
    ensures |pin| >= MaxPinLength ==> r == pin
  {
    if |pin| < MaxPinLength then pin + [key] else pin
  }

  /** The buffer after a run of key presses. */
  function PressAll(pin: string, keys: string): string
    decreases |keys|
  {
    if keys == [] then pin else PressAll(Press(pin, keys[0]), keys[1..])
  }

  function Min(a: int, b: int): int
  {
    if a < b then a else b
  }

  /** A buffer within the limit keeps exactly the first keys typed, up to six
      characters; every further key is ignored. */
  lemma {:induction false} PressAllKeepsPrefix(pin: string, keys: string)
    requires |pin| <= MaxPinLength
    ensures PressAll(pin, keys) == (pin + keys)[..Min(|pin| + |keys|, MaxPinLength)]
    ensures |PressAll(pin, keys)| <= MaxPinLength
    decreases |keys|
  {
    if keys != [] {
      var next := Press(pin, keys[0]);
      PressAllKeepsPrefix(next, keys[1..]);
      if |pin| < MaxPinLength {
        assert next + keys[1..] == pin + keys;
      } else {
        assert pin == (pin + keys)[..MaxPinLength];
        assert (next + keys[1..])[..MaxPinLength] == next;
      }
    }
  }

  /** Whether the buffer is long enough to submit. */
  predicate LongEnough(pin: string)
  {
    |pin| >= MinPinLength
  }
}

=== FILE: register.dfy ===
/** The register screen's session: the active ticket, the item whose modifier
    dialog is open, a pending manager authorisation, the cached held-orders list
    and whether the payment dialog is open; and the handlers that move it and
    the store: void, sold-out, manager authorisation, hold, resume and payment. */
module Register {
  import opened Schema
  import opened ModMap
  import opened Ticket
  import opened Rows
  import ModifierDialog
  import ManagerAuth
  import HeldOrders
  import Payment

  /** A privileged action waiting for a manager PIN. */
  datatype AuthRequest = AuthRequest(action: string, itemId: Option<string>)

  datatype Session = Session(
    employee: Employee,
    items: seq<OrderItem>,
    choosing: Option<MenuItem>,
    pending: Option<AuthRequest>,
    held: seq<HeldOrder>,
    paying: bool)

  /** The screen as it mounts: an empty ticket and the employee's held orders. */
  function Start(employee: Employee, store: Store): (r: Session)
    ensures r.items == [] && r.choosing.None? && r.pending.None? && !r.paying
    ensures forall i :: 0 <= i < |r.held| ==> r.held[i].employeeId == employee.id
  {
    Session(employee, [], None, None, HeldOrders.ListFor(store.heldOrders, employee.id), false)
  }

  // ---------------------------------------------------------------- adding

  /** `handleAddItem`: an item with modifier groups opens the selector; any other
      item joins the ticket at once with an empty modifier object, raising the
      subtotal by its menu price. */
  function HandleAddItem(s: Session, item: MenuItem, freshId: string): (r: Session)
    ensures |item.modifiers| > 0 ==> r.items == s.items && r.choosing == Some(item)
    ensures |item.modifiers| == 0 ==> r.choosing == s.choosing
    ensures |item.modifiers| == 0 ==> Subtotal(r.items) == Subtotal(s.items) + item.price
    ensures r.(items := s.items, choosing := s.choosing) == s
  {
    if |item.modifiers| > 0 then s.(choosing := Some(item))
    else
      AddItemSubtotal(s.items, item, [], freshId);
      s.(items := AddItem(s.items, item, [], freshId))
  }

  /** The selector's confirm button: the item joins the ticket with the chosen
      modifiers only when every group validates; otherwise the selector stays
      open and the ticket is unchanged. */
  function ChooseModifiers(s: Session, sel: ModifierMap, freshId: string): (r: Session)
    ensures s.choosing.None? ==> r == s
    ensures s.choosing.Some? && ModifierDialog.Confirm(s.choosing.value, sel).Rejected? ==> r == s
    ensures s.choosing.Some? && ModifierDialog.Confirm(s.choosing.value, sel).Confirmed? ==>
      && r.choosing.None?
      && Subtotal(r.items) == Subtotal(s.items) + UnitPrice(s.choosing.value, ModifierDialog.Confirm(s.choosing.value, sel).mods)
    ensures r.items != s.items ==>
      forall i :: 0 <= i < |s.choosing.value.modifiers| ==> ModifierDialog.GroupValid(s.choosing.value.modifiers[i], sel)
  {
    match s.choosing
    case None => s
    case Some(item) =>
      match ModifierDialog.Confirm(item, sel)
      case Rejected(_) => s
      case Confirmed(mods) =>
        AddItemSubtotal(s.items, item, mods, freshId);
        s.(items := AddItem(s.items, item, mods, freshId), choosing := None)
  }

  // ---------------------------------------------------------------- privileged actions

  /** `handleVoidOrder`: a manager clears the ticket; anyone else leaves it as it
      is and raises a "void" authorisation request. */
  function HandleVoid(s: Session): (r: Session)
    ensures IsManager(s.employee.role) ==> r.items == [] && r.pending == s.pending
    ensures !IsManager(s.employee.role) ==> r.items == s.items && r.pending == Some(AuthRequest("void", None))
    ensures r.(items := s.items, pending := s.pending) == s
  {
    if IsManager(s.employee.role) then s.(items := [])
    else s.(pending := Some(AuthRequest("void", None)))
  }

  /** The menu with every item of id `itemId` marked unavailable. */
  function SetUnavailable(menu: seq<MenuItem>, itemId: string): (r: seq<MenuItem>)
    ensures |r| == |menu|
    ensures forall j :: 0 <= j < |menu| && menu[j].id == itemId ==> r[j] == menu[j].(isAvailable := false)
    ensures forall j :: 0 <= j < |menu| && menu[j].id != itemId ==> r[j] == menu[j]
  {
    seq(|menu|, j requires 0 <= j < |menu| => if menu[j].id == itemId then menu[j].(isAvailable := false) else menu[j])
  }

  /** The items the register offers (`eq("is_available", true)`). */
  function OnMenu(menu: seq<MenuItem>): (r: seq<MenuItem>)
    ensures forall j :: 0 <= j < |r| ==> r[j].isAvailable && r[j] in menu
    ensures forall j :: 0 <= j < |menu| && menu[j].isAvailable ==> menu[j] in r
  {
    Filter(menu, (m: MenuItem) => m.isAvailable)
  }

  /** `markItemSoldOut`: the item is made unavailable and a "mark_sold_out" entry
      is appended to the override log; no other table changes. */
  function MarkItemSoldOut(store: Store, employee: Employee, itemId: string, now: int): (r: Store)
    ensures r.menuItems == SetUnavailable(store.menuItems, itemId)
    ensures r.overrideLogs == store.overrideLogs +
      [OverrideLog(employee.id, "mark_sold_out", Some(itemId), None, None, None, now, employee.currentShiftId)]
    ensures r == store.(menuItems := r.menuItems, overrideLogs := r.overrideLogs)
  {
    var log := OverrideLog(employee.id, "mark_sold_out", Some(itemId), None, None, None, now, employee.currentShiftId);
    store.(menuItems := SetUnavailable(store.menuItems, itemId), overrideLogs := store.overrideLogs + [log])
  }

  /** After an item is marked sold out the reloaded menu no longer offers it, and
      every other item is offered exactly as before. */
  lemma SoldOutLeavesMenu(store: Store, employee: Employee, itemId: string, now: int, m: MenuItem)
    ensures var menu := MarkItemSoldOut(store, employee, itemId, now).menuItems;
            && (m in OnMenu(menu) ==> m.id != itemId)
            && (m.id != itemId ==> (m in OnMenu(menu) <==> m in OnMenu(store.menuItems)))
  {
    var menu := MarkItemSoldOut(store, employee, itemId, now).menuItems;
    if m in OnMenu(menu) {
      var j :| 0 <= j < |menu| && menu[j] == m;
    }
    if m.id != itemId {
      if m in OnMenu(store.menuItems) {
        var j :| 0 <= j < |store.menuItems| && store.menuItems[j] == m;
        assert menu[j] == m;
      }
      if m in OnMenu(menu) {
        var j :| 0 <= j < |menu| && menu[j] == m;
        assert store.menuItems[j].id != itemId;
      }
    }
  }

  /** `handleMarkSoldOut`: a manager marks the item at once; anyone else raises a
      "soldout" authorisation request and the store is untouched. */
  function HandleMarkSoldOut(s: Session, store: Store, itemId: string, now: int): (r: (Session, Store))
    ensures IsManager(s.employee.role) ==> r.0 == s && r.1 == MarkItemSoldOut(store, s.employee, itemId, now)
    ensures !IsManager(s.employee.role) ==>
      r.0 == s.(pending := Some(AuthRequest("soldout", Some(itemId)))) && r.1 == store
  {
    if IsManager(s.employee.role) then (s, MarkItemSoldOut(store, s.employee, itemId, now))
    else (s.(pending := Some(AuthRequest("soldout", Some(itemId)))), store)
  }

  /** `handleManagerAuthSuccess`: carries out the pending action and closes the
      request. A "soldout" request without a (non-empty) item id does nothing. */
  function AuthSuccess(s: Session, store: Store, now: int): (r: (Session, Store))
    ensures r.0.pending.None?
    ensures s.pending.Some? && s.pending.value.action == "void" ==> r.0.items == [] && r.1 == store
    ensures s.pending.Some? && s.pending.value.action == "soldout" &&
            Truthy(s.pending.value.itemId) ==>
      r.0.items == s.items && r.1 == MarkItemSoldOut(store, s.employee, s.pending.value.itemId.value, now)
    ensures s.pending.None? || s.pending.value.action != "void" ==> r.0.items == s.items
    ensures r.1 != store ==> s.pending.Some? && s.pending.value.action == "soldout"
    ensures r.0.(items := s.items, pending := s.pending) == s
  {
    match s.pending
    case None => (s, store)
    case Some(req) =>
      var closed := s.(pending := None);
      if req.action == "void" then (closed.(items := []), store)
      else if req.action == "soldout" && Truthy(req.itemId) then
        (closed, MarkItemSoldOut(store, s.employee, req.itemId.value, now))
      else (closed, store)
  }

  /** A PIN submitted in the register's manager dialog: the pending action is
      carried out only when the dialog authorises. */
  function SubmitManagerPin(s: Session, store: Store, d: ManagerAuth.Dialog, reachable: bool, now: int): (r: (Session, Store, ManagerAuth.Dialog))
    ensures !ManagerAuth.Submit(d, store.employees, reachable).authorized ==> r.0 == s && r.1 == store
    ensures ManagerAuth.Submit(d, store.employees, reachable).authorized ==> (r.0, r.1) == AuthSuccess(s, store, now)
    ensures r.2 == ManagerAuth.Submit(d, store.employees, reachable).dialog
  {
    var attempt := ManagerAuth.Submit(d, store.employees, reachable);
    if attempt.authorized then
      var (s1, store1) := AuthSuccess(s, store, now);
      (s1, store1, attempt.dialog)
    else (s, store, attempt.dialog)
  }

  /** The price the selector previews is exactly what the ticket charges when the
      selections are confirmed. */
  lemma PreviewIsCharged(s: Session, sel: ModifierMap, freshId: string)
    requires s.choosing.Some? && |s.choosing.value.modifiers| > 0
    requires ModifierDialog.Confirm(s.choosing.value, sel).Confirmed?
    ensures Subtotal(ChooseModifiers(s, sel, freshId).items) == Subtotal(s.items) + ModifierDialog.PreviewPrice(s.choosing.value, sel)
  {
  }

  /** Whether some manager-role employee holds `pin`. */
  predicate ManagerHolds(employees: seq<Employee>, pin: string)
  {
    exists i :: 0 <= i < |employees| && employees[i].pin == pin && IsManager(employees[i].role)
  }

  /** A non-manager's void leaves the ticket as it is; it is cleared afterwards
      only through a PIN some manager holds, and always through a PIN that
      authorises. */
  lemma VoidNeedsManager(s: Session, store: Store, d: ManagerAuth.Dialog, reachable: bool, now: int)
    requires !IsManager(s.employee.role)
    requires s.items != []
    ensures var asked := HandleVoid(s);
            var r := SubmitManagerPin(asked, store, d, reachable, now);
            && asked.items == s.items
            && (r.0.items == [] ==> ManagerHolds(store.employees, d.pin))
            && (ManagerAuth.Submit(d, store.employees, reachable).authorized ==> r.0.items == [] && r.1 == store)
  {
  }

  /** A non-manager's sold-out request reaches the store only through a PIN some
      manager holds. */
  lemma SoldOutNeedsManager(s: Session, store: Store, itemId: string, d: ManagerAuth.Dialog, reachable: bool, now: int)
    requires !IsManager(s.employee.role)
    ensures var (asked, store1) := HandleMarkSoldOut(s, store, itemId, now);
            var r := SubmitManagerPin(asked, store1, d, reachable, now);
            && store1 == store
            && (r.1 != store ==> ManagerHolds(store.employees, d.pin))
  {
  }

  // ---------------------------------------------------------------- hold and resume

  /** The snapshot a hold writes: the lines and the totals at the moment of holding. */
  function Snapshot(s: Session, freshId: string, now: int): (r: HeldOrder)
    ensures r.id == freshId && r.employeeId == s.employee.id && r.items == s.items && r.timestamp == now
    ensures r.subtotal == Subtotal(r.items) && r.tax == Tax(r.items) && r.total == Total(r.items)
  {
    HeldOrder(freshId, s.employee.id, s.items, Subtotal(s.items), Tax(s.items), Total(s.items), now)
  }

  /** `handleHoldOrder` as written: nothing happens on an empty ticket; otherwise
      the snapshot is inserted when the store accepts it, and the ticket is
      cleared and the held list reloaded whether or not the insert succeeded. */
  function HandleHold(s: Session, store: Store, now: int, freshId: string, inserted: bool): (r: (Session, Store))
    ensures s.items == [] ==> r == (s, store)
    ensures s.items != [] ==> r.0.items == []
    ensures s.items != [] && inserted ==> r.1 == store.(heldOrders := store.heldOrders + [Snapshot(s, freshId, now)])
    ensures !inserted ==> r.1 == store
    ensures s.items != [] ==> r.0.held == HeldOrders.ListFor(r.1.heldOrders, s.employee.id)
    ensures r.0.(items := s.items, held := s.held) == s
  {
    if s.items == [] then (s, store)
    else
      var store1 := if inserted then store.(heldOrders := store.heldOrders + [Snapshot(s, freshId, now)]) else store;
      (s.(items := [], held := HeldOrders.ListFor(store1.heldOrders, s.employee.id)), store1)
  }

  /** Whether the lines `items` are still recoverable: on the active ticket or in a
      held snapshot. */
  predicate Recoverable(items: seq<OrderItem>, s: Session, store: Store)
  {
    s.items == items || exists i :: 0 <= i < |store.heldOrders| && store.heldOrders[i].items == items
  }

  /** A failed insert loses the ticket: its lines are neither active nor held. */
  lemma HoldFailureLosesTicket(s: Session, store: Store, now: int, freshId: string)
    requires s.items != []
    requires forall i :: 0 <= i < |store.heldOrders| ==> store.heldOrders[i].items != s.items
    ensures var r := HandleHold(s, store, now, freshId, false);
            !Recoverable(s.items, r.0, r.1)
  {
  }

  /** Hold that clears the ticket only once the insert is confirmed. */
  function HandleHoldConfirmed(s: Session, store: Store, now: int, freshId: string, inserted: bool): (r: (Session, Store))
    ensures s.items == [] || !inserted ==> r == (s, store)
    ensures s.items != [] && inserted ==> r == HandleHold(s, store, now, freshId, true)
  {
    if s.items == [] || !inserted then (s, store)
    else HandleHold(s, store, now, freshId, true)
  }

  /** With the confirmed hold, the ticket's lines are never lost, whatever the store answers. */
  lemma HoldConfirmedKeepsTicket(s: Session, store: Store, now: int, freshId: string, inserted: bool)
    ensures var r := HandleHoldConfirmed(s, store, now, freshId, inserted);
            Recoverable(s.items, r.0, r.1)
  {
    var r := HandleHoldConfirmed(s, store, now, freshId, inserted);
    if s.items != [] && inserted {
      assert r.1.heldOrders[|store.heldOrders|].items == s.items;
    }
  }

  /** `handleResumeOrder` after the list's resume: the snapshot's lines replace the
      ticket. The cached held list is not reloaded. */
  function HandleResume(s: Session, store: Store, order: HeldOrder, status: Status): (r: (Session, Store))
    ensures status != Thrown ==> r.0.items == order.items
    ensures status == Thrown ==> r.0 == s
    ensures r.0.(items := s.items) == s
    ensures r.1 == HeldOrders.Resume(store, order, status).store
  {
    var res := HeldOrders.Resume(store, order, status);
    match res.handedOver
    case None => (s, res.store)
    case Some(o) => (s.(items := o.items), res.store)
  }

  /** Holding a ticket and resuming its snapshot gives back the same lines (so the
      same subtotal, tax and total) and leaves the held table as it was. */
  lemma HoldThenResume(s: Session, store: Store, now: int, freshId: string)
    requires s.items != []
    requires !HeldOrders.Listed(store.heldOrders, freshId)
    ensures var (held, store1) := HandleHoldConfirmed(s, store, now, freshId, true);
            var (resumed, store2) := HandleResume(held, store1, Snapshot(s, freshId, now), Answered);
            && resumed.items == s.items
            && Subtotal(resumed.items) == Subtotal(s.items)
            && Tax(resumed.items) == Tax(s.items)
            && store2 == store
            && !HeldOrders.Listed(store2.heldOrders, freshId)
  {
    var snap := Snapshot(s, freshId, now);
    var p := (h: HeldOrder) => h.id != freshId;
    FilterAppend(store.heldOrders, [snap], p);
    FilterKeepsAll(store.heldOrders, p);
    assert Filter([snap], p) == [];
  }

  // ---------------------------------------------------------------- payment

  /** `handlePayment`: the payment dialog opens only for a non-empty ticket. */
  function HandlePayment(s: Session): (r: Session)
    ensures r.paying <==> s.paying || s.items != []
    ensures r.(paying := s.paying) == s
  {
    if s.items == [] then s else s.(paying := true)
  }

  /** The orders row written for a completed payment: the ticket's lines, subtotal
      and tax, with the payment's final total, tip, type and discount. */
  function OrderRow(s: Session, rec: Payment.PaymentRecord, now: int): (r: Order)
    ensures r.items == s.items && r.subtotal == Subtotal(r.items) && r.tax == Tax(r.items)
    ensures r.employeeId == s.employee.id && r.shiftId == s.employee.currentShiftId && r.timestamp == now
    ensures r.total == rec.total && r.tip == rec.tip && r.paymentType == rec.paymentType
      && r.discountPercent == rec.discountPercent
  {
    Order(s.employee.id, s.employee.currentShiftId, s.items, Subtotal(s.items), Tax(s.items),
          rec.total, rec.tip, rec.paymentType, rec.discountPercent, now)
  }

  /** `handlePaymentComplete`: the ticket is cleared and the dialog closed exactly
      when the order row was inserted; otherwise nothing changes. */
  function HandlePaymentComplete(s: Session, store: Store, rec: Payment.PaymentRecord, now: int, inserted: bool): (r: (Session, Store))
    ensures inserted ==> r.0 == s.(items := [], paying := false)
    ensures inserted ==> r.1 == store.(orders := store.orders + [OrderRow(s, rec, now)])
    ensures !inserted ==> r == (s, store)
  {
    if inserted then (s.(items := [], paying := false), store.(orders := store.orders + [OrderRow(s, rec, now)]))
    else (s, store)
  }

  /** The whole checkout: the payment dialog's completion (with its discount log
      entry, written first and kept even when the order insert fails) handed to
      the register. */
  function Checkout(s: Session, store: Store, st: Payment.State, now: int, inserted: bool): (r: (Session, Store))
    ensures r.1 == store.(overrideLogs := r.1.overrideLogs, orders := r.1.orders)
    ensures |store.overrideLogs| <= |r.1.overrideLogs| && r.1.overrideLogs[..|store.overrideLogs|] == store.overrideLogs
    ensures |store.orders| <= |r.1.orders| && r.1.orders[..|store.orders|] == store.orders
    ensures r.0.employee == s.employee
  {
    var c := Payment.Complete(st, Subtotal(s.items), Tax(s.items), Total(s.items), s.employee, now);
    var logged := if c.log.Some? then store.(overrideLogs := store.overrideLogs + [c.log.value]) else store;
    HandlePaymentComplete(s, logged, c.record, now, inserted)
  }

  /** A checkout records the discounted, tipped final total for the ticket's lines
      and clears the ticket iff the order was stored; the discount is logged iff
      one was applied, whether or not the order was stored. */
  lemma CheckoutRecordsFinalTotal(s: Session, store: Store, st: Payment.State, now: int, inserted: bool)
    ensures var r := Checkout(s, store, st, now, inserted);
            && (r.0.items == [] <==> inserted || s.items == [])
            && (inserted ==>
                  && |r.1.orders| == |store.orders| + 1
                  && r.1.orders[|store.orders|].items == s.items
                  && r.1.orders[|store.orders|].total == Payment.FinalTotal(st, Total(s.items)))
            && (!inserted ==> r.1.orders == store.orders)
            && (|r.1.overrideLogs| == |store.overrideLogs| + 1 <==> st.discountPercent > 0.0)
  {
  }
}

=== FILE: rows.dfy ===
/** Query helpers over store tables: row filtering (`.eq`, `.filter`) and
    `.single()`, which answers with a row only when exactly one row matches. */
module Rows {

  datatype SingleRow<T> = Row(value: T) | NoRow

  /** `.single()`: zero rows and several rows are both an error (no data). */
  function Single<T>(rows: seq<T>): (r: SingleRow<T>)
    ensures r.Row? <==> |rows| == 1
    ensures r.Row? ==> r.value in rows
  {
    if |rows| == 1 then Row(rows[0]) else NoRow
  }

  function Filter<T>(s: seq<T>, p: T -> bool): (r: seq<T>)
    ensures |r| <= |s|
    ensures forall i :: 0 <= i < |r| ==> r[i] in s && p(r[i])
    ensures forall i :: 0 <= i < |s| && p(s[i]) ==> s[i] in r
  {
    if s == [] then []
    else if p(s[0]) then [s[0]] + Filter(s[1..], p)
    else Filter(s[1..], p)
  }

  /** Filtering distributes over concatenation. */
  lemma {:induction false} FilterAppend<T>(a: seq<T>, b: seq<T>, p: T -> bool)
    ensures Filter(a + b, p) == Filter(a, p) + Filter(b, p)
  {
    if a == [] {
      assert a + b == b;
    } else {
      assert (a + b)[1..] == a[1..] + b;
      FilterAppend(a[1..], b, p);
    }
  }

  /** Filtering with a predicate every element meets changes nothing. */
  lemma {:induction false} FilterKeepsAll<T>(s: seq<T>, p: T -> bool)
    requires forall i :: 0 <= i < |s| ==> p(s[i])
    ensures Filter(s, p) == s
  {
    if s != [] {
      FilterKeepsAll(s[1..], p);
    }
  }

  /** Filtering with a predicate no element meets leaves nothing. */
  lemma {:induction false} FilterKeepsNone<T>(s: seq<T>, p: T -> bool)
    requires forall i :: 0 <= i < |s| ==> !p(s[i])
    ensures Filter(s, p) == []
  {
    if s != [] {
      FilterKeepsNone(s[1..], p);
    }
  }

  /** `a` is `b` with some elements left out, the rest kept in order. */
  predicate IsSubsequence<T(==)>(a: seq<T>, b: seq<T>)
    decreases |b|
  {
    if a == [] then true
    else if b == [] then false
    else if a[0] == b[0] then IsSubsequence(a[1..], b[1..])
    else IsSubsequence(a, b[1..])
  }

  /** Filtering keeps the surviving elements in their original order. */
  lemma {:induction false} FilterIsSubsequence<T>(s: seq<T>, p: T -> bool)
    ensures IsSubsequence(Filter(s, p), s)
  {
    if s != [] {
      FilterIsSubsequence(s[1..], p);
      var rest := Filter(s[1..], p);
      if p(s[0]) {
        assert ([s[0]] + rest)[1..] == rest;
      } else {
        SubsequenceOfTail(rest, s);
      }
    }
  }

  lemma {:induction false} SubsequenceOfTail<T>(a: seq<T>, b: seq<T>)
    requires b != [] && IsSubsequence(a, b[1..])
    ensures IsSubsequence(a, b)
    decreases |b|, |a|
  {
    if a != [] && a[0] == b[0] {
      SubsequenceDropHead(a, b[1..]);
    }
  }

  lemma {:induction false} SubsequenceDropHead<T>(a: seq<T>, b: seq<T>)
    requires a != [] && IsSubsequence(a, b)
    ensures IsSubsequence(a[1..], b)
    decreases |b|, |a|
  {
    if a[0] == b[0] {
      SubsequenceOfTail(a[1..], b);
    } else {
      SubsequenceDropHead(a, b[1..]);
      SubsequenceOfTail(a[1..], b);
    }
  }

  /** Filtering keeps every element meeting `p` as often as it occurs, and no other. */
  lemma {:induction false} FilterMultiset<T>(s: seq<T>, p: T -> bool)
    ensures forall x :: multiset(Filter(s, p))[x] == if p(x) then multiset(s)[x] else 0
  {
    if s != [] {
      FilterMultiset(s[1..], p);
      assert s == [s[0]] + s[1..];
      assert multiset(s) == multiset{s[0]} + multiset(s[1..]);
      if p(s[0]) {
        assert multiset(Filter(s, p)) == multiset{s[0]} + multiset(Filter(s[1..], p));
      }
    }
  }

  /** When `.single()` answers on a filtered table, the row it returns is every
      matching row of the table. */
  lemma SingleMatchesAll<T>(s: seq<T>, p: T -> bool)
    requires Single(Filter(s, p)).Row?
    ensures forall j :: 0 <= j < |s| && p(s[j]) ==> s[j] == Single(Filter(s, p)).value
  {
    var rows := Filter(s, p);
    forall j | 0 <= j < |s| && p(s[j]) ensures s[j] == Single(rows).value {
      var k :| 0 <= k < |rows| && rows[k] == s[j];
    }
  }
}

=== FILE: schema.dfy ===
/** Row shapes of the restaurant store (after restaurant-pos/lib/supabase.ts) and the
    rows the components write inline: held orders, orders and override logs.
    Money is exact `real`; rounding to cents happens only at display time and is not
    modelled. Timestamps are milliseconds since the epoch, as `Date.getTime()` gives. */
module Schema {

  datatype Option<+T> = None | Some(value: T)

  /** An optional id as a JavaScript condition sees it: absent and "" are both false. */
  predicate Truthy(id: Option<string>) { id.Some? && id.value != "" }

  datatype Role = Cashier | Manager | Cook | Prep

  predicate IsManager(r: Role) { r == Manager }

  datatype Employee = Employee(
    id: string,
    pin: string,
    name: string,
    role: Role,
    isClockedIn: bool,
    currentShiftId: Option<string>)

  datatype Shift = Shift(
    id: string,
    employeeId: string,
    clockIn: int,
    clockOut: Option<int>,
    breakStart: Option<int>,
    breakEnd: Option<int>,
    totalHours: Option<real>)

  datatype ModifierOption = ModifierOption(id: string, name: string, price: real)

  /** A modifier group; `maxSelections == 1` is rendered and handled as a radio group. */
  datatype Modifier = Modifier(
    id: string,
    name: string,
    price: real,
    maxSelections: int,
    required: bool,
    options: seq<ModifierOption>)

  /** A menu item; an absent modifier list is the empty sequence. */
  datatype MenuItem = MenuItem(
    id: string,
    name: string,
    price: real,
    categoryId: string,
    isAvailable: bool,
    modifiers: seq<Modifier>)

  /** One key of the modifier object: a group name and the options chosen in it.
      The object itself is an ordered list of these, in key insertion order,
      because its serialised form (and so line merging) depends on that order. */
  datatype Choice = Choice(group: string, options: seq<ModifierOption>)
  type ModifierMap = seq<Choice>

  /** A line's quantity; a line whose quantity would reach 0 is removed instead. */
  type Quantity = q: int | 1 <= q witness 1

  datatype OrderItem = OrderItem(
    id: string,
    menuItem: MenuItem,
    quantity: Quantity,
    modifiers: ModifierMap,
    totalPrice: real)

  /** A parked ticket: a snapshot of the lines and of the totals when it was held. */
  datatype HeldOrder = HeldOrder(
    id: string,
    employeeId: string,
    items: seq<OrderItem>,
    subtotal: real,
    tax: real,
    total: real,
    timestamp: int)

  datatype PaymentType = Cash | Card | Split

  /** A completed sale as written to the orders table. */
  datatype Order = Order(
    employeeId: string,
    shiftId: Option<string>,
    items: seq<OrderItem>,
    subtotal: real,
    tax: real,
    total: real,
    tip: real,
    paymentType: PaymentType,
    discountPercent: real,
    timestamp: int)

  /** An entry of the append-only audit trail of privileged actions. */
  datatype OverrideLog = OverrideLog(
    employeeId: string,
    action: string,
    itemId: Option<string>,
    discountPercent: Option<real>,
    amount: Option<real>,
    reason: Option<string>,
    timestamp: int,
    shiftId: Option<string>)

  /** The backing store, as the tables the core reads and writes. */
  datatype Store = Store(
    employees: seq<Employee>,
    shifts: seq<Shift>,
    menuItems: seq<MenuItem>,
    heldOrders: seq<HeldOrder>,
    orders: seq<Order>,
    overrideLogs: seq<OverrideLog>)

  /** Outcome of a store query: answered, answered with an error (data is null),
      or the awaited call threw. */
  datatype Status = Answered | ErrorReply | Thrown

  const MsPerHour: int := 3600000

  /** Hours between two instants, as `(to - from) / (1000 * 60 * 60)`. */
  function HoursBetween(from: int, to: int): real
  {
    (to - from) as real / MsPerHour as real
  }

  /** PIN buffer limits shared by every keypad screen. */
  const MinPinLength: nat := 4
  const MaxPinLength: nat := 6
}

=== FILE: shifts.dfy ===
/** Row updates on the shifts and employees tables shared by the login screen's
    automatic clock-out and the timeclock: `update(...).eq("id", id)` applied to
    every row with that id, and the clock-state invariants they keep. */
module Shifts {
  import opened Schema
  import opened Rows

  /** `select(...).eq("id", id).single()` on the shifts table. */
  function FindShift(shifts: seq<Shift>, id: string): (r: SingleRow<Shift>)
    ensures r.Row? ==> r.value in shifts && r.value.id == id
    ensures r.Row? ==> forall j :: 0 <= j < |shifts| && shifts[j].id == id ==> shifts[j] == r.value
    ensures r.NoRow? <==> |Filter(shifts, (s: Shift) => s.id == id)| != 1
  {
    var p := (s: Shift) => s.id == id;
    var r := Single(Filter(shifts, p));
    if r.Row? then
      SingleMatchesAll(shifts, p);
      assert r.value in Filter(shifts, p);
      r
    else r
  }

  /** Closes every shift with `id`: clock-out time and total hours are written. */
  function CloseShift(shifts: seq<Shift>, id: string, now: int, hours: real): (r: seq<Shift>)
    ensures |r| == |shifts|
    ensures forall j :: 0 <= j < |shifts| && shifts[j].id == id ==>
      r[j] == shifts[j].(clockOut := Some(now), totalHours := Some(hours))
    ensures forall j :: 0 <= j < |shifts| && shifts[j].id != id ==> r[j] == shifts[j]
  {
    seq(|shifts|, j requires 0 <= j < |shifts| =>
      if shifts[j].id == id then shifts[j].(clockOut := Some(now), totalHours := Some(hours)) else shifts[j])
  }

  /** Writes a break start (or, with `end`, a break end) on every shift with `id`. */
  function MarkBreak(shifts: seq<Shift>, id: string, now: int, end: bool): (r: seq<Shift>)
    ensures |r| == |shifts|
    ensures forall j :: 0 <= j < |shifts| && shifts[j].id == id && !end ==> r[j] == shifts[j].(breakStart := Some(now))
    ensures forall j :: 0 <= j < |shifts| && shifts[j].id == id && end ==> r[j] == shifts[j].(breakEnd := Some(now))
    ensures forall j :: 0 <= j < |shifts| && shifts[j].id != id ==> r[j] == shifts[j]
  {
    seq(|shifts|, j requires 0 <= j < |shifts| =>
      if shifts[j].id != id then shifts[j]
      else if end then shifts[j].(breakEnd := Some(now))
      else shifts[j].(breakStart := Some(now)))
  }

  /** Sets the clock state of every employee row with `id`. */
  function SetClock(employees: seq<Employee>, id: string, clockedIn: bool, shiftId: Option<string>): (r: seq<Employee>)
    ensures |r| == |employees|
    ensures forall j :: 0 <= j < |employees| && employees[j].id == id ==>
      r[j] == employees[j].(isClockedIn := clockedIn, currentShiftId := shiftId)
    ensures forall j :: 0 <= j < |employees| && employees[j].id != id ==> r[j] == employees[j]
  {
    seq(|employees|, j requires 0 <= j < |employees| =>
      if employees[j].id == id then employees[j].(isClockedIn := clockedIn, currentShiftId := shiftId) else employees[j])
  }

  /** An employee is clocked in exactly when a current shift is recorded. */
  predicate ClockConsistent(e: Employee)
  {
    e.isClockedIn <==> e.currentShiftId.Some?
  }

  predicate AllClockConsistent(employees: seq<Employee>)
  {
    forall j :: 0 <= j < |employees| ==> ClockConsistent(employees[j])
  }

  /** A closed shift records the hours between its clock-in and clock-out. */
  predicate HoursRecorded(s: Shift)
  {
    s.clockOut.Some? ==> s.totalHours == Some(HoursBetween(s.clockIn, s.clockOut.value))
  }

  /** Setting a clock state that is itself consistent keeps every row consistent. */
  lemma SetClockKeepsConsistent(employees: seq<Employee>, id: string, clockedIn: bool, shiftId: Option<string>)
    requires AllClockConsistent(employees)
    requires clockedIn <==> shiftId.Some?
    ensures AllClockConsistent(SetClock(employees, id, clockedIn, shiftId))
  {
  }

  /** Closing the one shift with `id` at `now` with the hours measured from its own
      clock-in records those hours correctly. */
  lemma CloseShiftRecordsHours(shifts: seq<Shift>, id: string, now: int)
    requires FindShift(shifts, id).Row?
    ensures var closed := CloseShift(shifts, id, now, HoursBetween(FindShift(shifts, id).value.clockIn, now));
            forall j :: 0 <= j < |shifts| && shifts[j].id == id ==>
              && closed[j] == shifts[j].(clockOut := Some(now), totalHours := Some(HoursBetween(shifts[j].clockIn, now)))
              && HoursRecorded(closed[j])
  {
  }
}

=== FILE: splh.dfy ===
/** The live sales-per-labour-hour banner: hours worked today by cashiers, sales
    taken today, and their ratio, guarded against a zero or negative hour count.
    `todayStart` is the first instant of the current day and `now` the current
    instant, both in milliseconds. */
module Splh {
  import opened Schema
  import opened Rows
  import Shifts

  datatype Banner = Banner(splh: real, totalSales: real, totalHours: real)

  /** The banner before its first refresh, and after a refresh that finds no shifts. */
  function Zero(): Banner
  {
    Banner(0.0, 0.0, 0.0)
  }

  /** Some employee with that id has the cashier role (the inner join on role). */
  predicate IsCashier(employees: seq<Employee>, id: string)
  {
    exists j :: 0 <= j < |employees| && employees[j].id == id && employees[j].role == Cashier
  }

  /** A shift counts when it started today and belongs to a cashier. */
  predicate Qualifies(employees: seq<Employee>, todayStart: int, s: Shift)
  {
    s.clockIn >= todayStart && IsCashier(employees, s.employeeId)
  }

  function TodaysCashierShifts(store: Store, todayStart: int): (r: seq<Shift>)
    ensures forall i :: 0 <= i < |r| ==> r[i] in store.shifts && Qualifies(store.employees, todayStart, r[i])
    ensures forall i :: 0 <= i < |store.shifts| && Qualifies(store.employees, todayStart, store.shifts[i]) ==>
      store.shifts[i] in r
  {
    Filter(store.shifts, (s: Shift) => Qualifies(store.employees, todayStart, s))
  }

  /** A shift's hours so far: up to its clock-out, or up to now while it is open. */
  function ShiftHours(s: Shift, now: int): real
  {
    HoursBetween(s.clockIn, if s.clockOut.Some? then s.clockOut.value else now)
  }

  /** `forEach` summing each shift's hours. */
  function HoursWorked(shifts: seq<Shift>, now: int): (r: real)
    ensures (forall i :: 0 <= i < |shifts| ==> ShiftHours(shifts[i], now) >= 0.0) ==> r >= 0.0
  {
    if shifts == [] then 0.0 else ShiftHours(shifts[0], now) + HoursWorked(shifts[1..], now)
  }

  /** Sum of order totals. */
  function Sales(orders: seq<Order>): (r: real)
    ensures (forall i :: 0 <= i < |orders| ==> orders[i].total >= 0.0) ==> r >= 0.0
  {
    if orders == [] then 0.0 else orders[0].total + Sales(orders[1..])
  }

  function OrdersSince(orders: seq<Order>, todayStart: int): seq<Order>
  {
    Filter(orders, (o: Order) => o.timestamp >= todayStart)
  }

  /** The ratio shown: sales per hour when hours are positive, otherwise 0. */
  function Rate(sales: real, hours: real): (r: real)
    ensures hours > 0.0 ==> r * hours == sales
    ensures hours <= 0.0 ==> r == 0.0
  {
    if hours > 0.0 then sales / hours else 0.0
  }

  /** `calculateSPLH`. `shifts` and `orders` are the outcomes of the two queries:
      an error reply carries no data, a thrown call abandons the refresh and
      leaves the banner as it was. */
  function Refresh(b: Banner, store: Store, todayStart: int, now: int, shifts: Status, orders: Status): (r: Banner)
    ensures shifts == Thrown ==> r == b
    ensures shifts == ErrorReply ==> r == Zero()
    ensures shifts == Answered && TodaysCashierShifts(store, todayStart) == [] ==> r == Zero()
    ensures shifts == Answered && TodaysCashierShifts(store, todayStart) != [] && orders == Thrown ==> r == b
    ensures shifts == Answered && TodaysCashierShifts(store, todayStart) != [] && orders != Thrown ==>
      && r.totalHours == HoursWorked(TodaysCashierShifts(store, todayStart), now)
      && r.totalSales == (if orders == Answered then Sales(OrdersSince(store.orders, todayStart)) else 0.0)
    ensures shifts == Answered && TodaysCashierShifts(store, todayStart) != [] && orders != Thrown ==>
      r.splh == Rate(r.totalSales, r.totalHours)
  {
    if shifts == Thrown then b
    else
      var qualifying := if shifts == Answered then TodaysCashierShifts(store, todayStart) else [];
      if qualifying == [] then Zero()
      else if orders == Thrown then b
      else
        var hours := HoursWorked(qualifying, now);
        var sales := if orders == Answered then Sales(OrdersSince(store.orders, todayStart)) else 0.0;
        Banner(Rate(sales, hours), sales, hours)
  }

  // ---------------------------------------------------------------- sums

  lemma {:induction false} HoursWorkedAppend(a: seq<Shift>, b: seq<Shift>, now: int)
    ensures HoursWorked(a + b, now) == HoursWorked(a, now) + HoursWorked(b, now)
  {
    if a == [] {
      assert a + b == b;
    } else {
      assert (a + b)[1..] == a[1..] + b;
      HoursWorkedAppend(a[1..], b, now);
    }
  }

  /** Total hours recorded on the shifts (a shift without a record adds nothing). */
  function RecordedHours(shifts: seq<Shift>): real
  {
    if shifts == [] then 0.0
    else (if shifts[0].totalHours.Some? then shifts[0].totalHours.value else 0.0) + RecordedHours(shifts[1..])
  }

  /** For shifts closed by the timeclock or by the login's automatic clock-out,
      the hours the banner measures equal the hours those shifts recorded. */
  lemma {:induction false} HoursWorkedMatchesRecorded(shifts: seq<Shift>, now: int)
    requires forall i :: 0 <= i < |shifts| ==> shifts[i].clockOut.Some? && Shifts.HoursRecorded(shifts[i])
    ensures HoursWorked(shifts, now) == RecordedHours(shifts)
  {
    if shifts != [] {
      HoursWorkedMatchesRecorded(shifts[1..], now);
    }
  }

  /** Shifts that do not end before they start contribute non-negative hours. */
  lemma {:induction false} HoursWorkedNonNegative(shifts: seq<Shift>, now: int)
    requires forall i :: 0 <= i < |shifts| ==>
      shifts[i].clockIn <= (if shifts[i].clockOut.Some? then shifts[i].clockOut.value else now)
    ensures HoursWorked(shifts, now) >= 0.0
  {
    if shifts != [] {
      HoursWorkedNonNegative(shifts[1..], now);
    }
  }

  /** Reference definition of today's sales: every order's total counted when it
      was taken today. */
  function SalesToday(orders: seq<Order>, todayStart: int): real
  {
    if orders == [] then 0.0
    else (if orders[0].timestamp >= todayStart then orders[0].total else 0.0) + SalesToday(orders[1..], todayStart)
  }

  lemma {:induction false} SalesSinceMatchesReference(orders: seq<Order>, todayStart: int)
    ensures Sales(OrdersSince(orders, todayStart)) == SalesToday(orders, todayStart)
  {
    if orders != [] {
      SalesSinceMatchesReference(orders[1..], todayStart);
      if orders[0].timestamp >= todayStart {
        assert OrdersSince(orders, todayStart) == [orders[0]] + OrdersSince(orders[1..], todayStart);
        assert (([orders[0]] + OrdersSince(orders[1..], todayStart)))[1..] == OrdersSince(orders[1..], todayStart);
      } else {
        assert OrdersSince(orders, todayStart) == OrdersSince(orders[1..], todayStart);
      }
    }
  }

  /** A refresh with data shows the ratio of today's sales, counted independently
      of the query's filter, to today's cashier hours (`Rate` guards the division). */
  lemma RefreshShowsRatio(b: Banner, store: Store, todayStart: int, now: int)
    requires TodaysCashierShifts(store, todayStart) != []
    ensures var r := Refresh(b, store, todayStart, now, Answered, Answered);
            r.splh == Rate(SalesToday(store.orders, todayStart), HoursWorked(TodaysCashierShifts(store, todayStart), now))
  {
    SalesSinceMatchesReference(store.orders, todayStart);
  }
}

=== FILE: ticket.dfy ===
/** The active order ticket of the register: its lines, the derived subtotal, tax
    and total, and the line operations (add with merge, quantity change, removal). */
module Ticket {
  import opened Schema
  import opened ModMap

  const TaxRate: real := 0.08

  /** Sum of the line totals (`reduce((sum, item) => sum + item.total_price, 0)`). */
  function Subtotal(items: seq<OrderItem>): (r: real)
    ensures (forall j :: 0 <= j < |items| ==> items[j].totalPrice >= 0.0) ==> r >= 0.0
  {
    if items == [] then 0.0 else items[0].totalPrice + Subtotal(items[1..])
  }

  /** The tax on the ticket: never negative and never more than the subtotal when
      the subtotal is non-negative. */
  function Tax(items: seq<OrderItem>): (r: real)
    ensures Subtotal(items) >= 0.0 ==> 0.0 <= r <= Subtotal(items)
  {
    Subtotal(items) * TaxRate
  }

  /** The amount due: tax only ever raises a non-negative subtotal, and the total
      is zero exactly when the subtotal is. */
  function Total(items: seq<OrderItem>): (r: real)
    ensures Subtotal(items) >= 0.0 ==> r >= Subtotal(items)
    ensures r == 0.0 <==> Subtotal(items) == 0.0
  {
    Subtotal(items) + Tax(items)
  }

  /** A line is merged into when it is for the same menu item id and its
      modifier object serialises identically, which for these value types is
      structural equality, key order and option order included. */
  predicate SameLine(line: OrderItem, item: MenuItem, mods: ModifierMap)
  {
    line.menuItem.id == item.id && line.modifiers == mods
  }

  predicate HasLine(items: seq<OrderItem>, item: MenuItem, mods: ModifierMap)
  {
    exists j :: 0 <= j < |items| && SameLine(items[j], item, mods)
  }

  /** `findIndex`: the first matching line, or -1. */
  function FindLine(items: seq<OrderItem>, item: MenuItem, mods: ModifierMap): (k: int)
    ensures -1 <= k < |items|
    ensures k == -1 <==> !HasLine(items, item, mods)
    ensures k >= 0 ==> SameLine(items[k], item, mods)
    ensures k >= 0 ==> forall j :: 0 <= j < k ==> !SameLine(items[j], item, mods)
  {
    if items == [] then -1
    else if SameLine(items[0], item, mods) then 0
    else
      var k := FindLine(items[1..], item, mods);
      assert forall j :: 1 <= j < |items| ==> items[j] == items[1..][j - 1];
      if k == -1 then -1 else k + 1
  }

  /** Adds one unit of `item` with `mods`: merges into the first matching line
      (quantity + 1, total + unit price) or appends a new line with `freshId`. */
  function AddItem(items: seq<OrderItem>, item: MenuItem, mods: ModifierMap, freshId: string): (r: seq<OrderItem>)
    ensures HasLine(items, item, mods) ==>
      var k := FindLine(items, item, mods);
      && |r| == |items|
      && r[k] == items[k].(quantity := items[k].quantity + 1, totalPrice := items[k].totalPrice + UnitPrice(item, mods))
      && forall j :: 0 <= j < |r| && j != k ==> r[j] == items[j]
    ensures !HasLine(items, item, mods) ==>
      r == items + [OrderItem(freshId, item, 1, mods, UnitPrice(item, mods))]
  {
    var unit := UnitPrice(item, mods);
    var k := FindLine(items, item, mods);
    if k >= 0 then
      items[k := items[k].(quantity := items[k].quantity + 1, totalPrice := items[k].totalPrice + unit)]
    else
      items + [OrderItem(freshId, item, 1, mods, unit)]
  }

  /** The lines whose id differs from `id`, in order (`filter(item => item.id !== id)`). */
  function Without(items: seq<OrderItem>, id: string): (r: seq<OrderItem>)
    ensures |r| <= |items|
    ensures NoId(r, id)
  {
    if items == [] then []
    else if items[0].id == id then Without(items[1..], id)
    else [items[0]] + Without(items[1..], id)
  }

  /** The quantity after a change, `Math.max(0, quantity + delta)`. */
  function NewQuantity(line: OrderItem, delta: int): nat
  {
    if line.quantity + delta < 0 then 0 else line.quantity + delta
  }

  /** The line after a quantity change, or None when it drops to 0. The total is
      rescaled at the line's own per-unit price `totalPrice / quantity`. */
  function Rescale(line: OrderItem, delta: int): Option<OrderItem>
  {
    var nq := NewQuantity(line, delta);
    if nq == 0 then None
    else Some(line.(quantity := nq, totalPrice := line.totalPrice / line.quantity as real * nq as real))
  }

  /** What one line becomes under a quantity change for `id`. */
  function Step(line: OrderItem, id: string, delta: int): seq<OrderItem>
  {
    if line.id != id then [line]
    else match Rescale(line, delta)
      case None => []
      case Some(l) => [l]
  }

  /** `handleQuantityChange`: rescales every line with `id`, dropping those that reach 0. */
  function ChangeQuantity(items: seq<OrderItem>, id: string, delta: int): (r: seq<OrderItem>)
    ensures |r| <= |items|
  {
    if items == [] then [] else Step(items[0], id, delta) + ChangeQuantity(items[1..], id, delta)
  }

  /** A quantity change leaves every line with another id untouched and in order. */
  lemma {:induction false} ChangeQuantityKeepsOthers(items: seq<OrderItem>, id: string, delta: int)
    ensures Without(ChangeQuantity(items, id, delta), id) == Without(items, id)
  {
    if items != [] {
      var st := Step(items[0], id, delta);
      ChangeQuantityKeepsOthers(items[1..], id, delta);
      WithoutAppend(st, ChangeQuantity(items[1..], id, delta), id);
      WithoutAppend([items[0]], items[1..], id);
      assert items == [items[0]] + items[1..];
      assert Without(st, id) == Without([items[0]], id) by {
        assert [items[0]][1..] == [];
        if st != [items[0]] {
          assert st == [] || st == [st[0]];
          assert |st| == 1 ==> st[1..] == [];
        }
      }
    }
  }

  lemma {:induction false} WithoutAppend(a: seq<OrderItem>, b: seq<OrderItem>, id: string)
    ensures Without(a + b, id) == Without(a, id) + Without(b, id)
  {
    if a == [] {
      assert a + b == b;
    } else {
      assert (a + b)[1..] == a[1..] + b;
      WithoutAppend(a[1..], b, id);
    }
  }

  lemma {:induction false} ChangeQuantityAppend(a: seq<OrderItem>, b: seq<OrderItem>, id: string, delta: int)
    ensures ChangeQuantity(a + b, id, delta) == ChangeQuantity(a, id, delta) + ChangeQuantity(b, id, delta)
  {
    if a == [] {
      assert a + b == b;
    } else {
      assert (a + b)[1..] == a[1..] + b;
      ChangeQuantityAppend(a[1..], b, id, delta);
    }
  }

  /** `handleRemoveItem`. */
  function RemoveItem(items: seq<OrderItem>, id: string): (r: seq<OrderItem>)
    ensures forall j :: 0 <= j < |r| ==> r[j].id != id
    ensures forall j :: 0 <= j < |items| && items[j].id != id ==> items[j] in r
    ensures forall j :: 0 <= j < |r| ==> r[j] in items
  {
    WithoutMembers(items, id);
    Without(items, id)
  }

  lemma {:induction false} WithoutMembers(items: seq<OrderItem>, id: string)
    ensures forall j :: 0 <= j < |items| && items[j].id != id ==> items[j] in Without(items, id)
    ensures forall j :: 0 <= j < |Without(items, id)| ==> Without(items, id)[j] in items
  {
    if items != [] {
      WithoutMembers(items[1..], id);
      assert forall j :: 1 <= j < |items| ==> items[j] == items[1..][j - 1];
    }
  }

  predicate IdsUnique(items: seq<OrderItem>)
  {
    forall i, j :: 0 <= i < j < |items| ==> items[i].id != items[j].id
  }

  /** Each line's total is its quantity times its own unit price. */
  predicate LineConsistent(line: OrderItem)
  {
    line.totalPrice == line.quantity as real * UnitPrice(line.menuItem, line.modifiers)
  }

  predicate Consistent(items: seq<OrderItem>)
  {
    forall j :: 0 <= j < |items| ==> LineConsistent(items[j])
  }

  /** The menu item being added has the price of every line that references it. */
  predicate PricesAgree(items: seq<OrderItem>, item: MenuItem)
  {
    forall j :: 0 <= j < |items| && items[j].menuItem.id == item.id ==> items[j].menuItem.price == item.price
  }

  // ---------------------------------------------------------------- totals

  lemma {:induction false} SubtotalAppend(a: seq<OrderItem>, b: seq<OrderItem>)
    ensures Subtotal(a + b) == Subtotal(a) + Subtotal(b)
  {
    if a == [] {
      assert a + b == b;
    } else {
      assert (a + b)[1..] == a[1..] + b;
      SubtotalAppend(a[1..], b);
    }
  }

  lemma {:induction false} SubtotalUpdate(items: seq<OrderItem>, i: int, line: OrderItem)
    requires 0 <= i < |items|
    ensures Subtotal(items[i := line]) == Subtotal(items) - items[i].totalPrice + line.totalPrice
  {
    if i > 0 {
      assert items[i := line][1..] == items[1..][i - 1 := line];
      SubtotalUpdate(items[1..], i - 1, line);
    } else {
      assert items[i := line][1..] == items[1..];
    }
  }

  lemma {:induction false} SubtotalRemoveAt(items: seq<OrderItem>, i: int)
    requires 0 <= i < |items|
    ensures Subtotal(items[..i] + items[i + 1..]) == Subtotal(items) - items[i].totalPrice
  {
    assert items == items[..i] + ([items[i]] + items[i + 1..]);
    SubtotalAppend(items[..i], [items[i]] + items[i + 1..]);
    SubtotalAppend(items[..i], items[i + 1..]);
    assert ([items[i]] + items[i + 1..])[1..] == items[i + 1..];
  }

  /** The displayed total is the subtotal plus 8% tax. */
  lemma TotalIncludesTax(items: seq<OrderItem>)
    ensures Tax(items) == Subtotal(items) * 8.0 / 100.0
    ensures Total(items) == Subtotal(items) * 108.0 / 100.0
  {
  }

  /** Every line of a consistent ticket adds quantity times unit price. */
  lemma {:induction false} SubtotalOfConsistent(items: seq<OrderItem>)
    requires Consistent(items)
    ensures Subtotal(items) == LineSum(items)
  {
    if items != [] {
      SubtotalOfConsistent(items[1..]);
    }
  }

  /** Reference definition of the subtotal: quantity times unit price, summed. */
  function LineSum(items: seq<OrderItem>): real
  {
    if items == [] then 0.0
    else items[0].quantity as real * UnitPrice(items[0].menuItem, items[0].modifiers) + LineSum(items[1..])
  }

  // ---------------------------------------------------------------- adding

  /** Adding an item raises the subtotal by exactly its unit price, whether it
      merges or appends. */
  lemma AddItemSubtotal(items: seq<OrderItem>, item: MenuItem, mods: ModifierMap, freshId: string)
    ensures Subtotal(AddItem(items, item, mods, freshId)) == Subtotal(items) + UnitPrice(item, mods)
  {
    var unit := UnitPrice(item, mods);
    var k := FindLine(items, item, mods);
    if k >= 0 {
      SubtotalUpdate(items, k, items[k].(quantity := items[k].quantity + 1, totalPrice := items[k].totalPrice + unit));
    } else {
      var line := OrderItem(freshId, item, 1, mods, unit);
      SubtotalAppend(items, [line]);
      assert Subtotal([line]) == unit + Subtotal([]);
    }
  }

  /** Adding keeps every line's total equal to quantity times unit price. */
  lemma AddItemConsistent(items: seq<OrderItem>, item: MenuItem, mods: ModifierMap, freshId: string)
    requires Consistent(items)
    requires PricesAgree(items, item)
    ensures Consistent(AddItem(items, item, mods, freshId))
  {
    var r := AddItem(items, item, mods, freshId);
    if HasLine(items, item, mods) {
      var k := FindLine(items, item, mods);
      assert UnitPrice(items[k].menuItem, items[k].modifiers) == UnitPrice(item, mods);
      assert LineConsistent(r[k]);
    }
  }

  /** Without agreeing prices the invariant fails: a line holding the item at an
      older price (restored from a held snapshot, or added before the menu was
      reloaded) merges with the item at its current price into a line whose total
      is not quantity × unit price. */
  lemma StalePriceBreaksConsistency(item: MenuItem, stalePrice: real, mods: ModifierMap)
    requires stalePrice != item.price
    ensures var stale := item.(price := stalePrice);
            var items := [OrderItem("1", stale, 1, mods, UnitPrice(stale, mods))];
            && Consistent(items)
            && !PricesAgree(items, item)
            && !Consistent(AddItem(items, item, mods, "2"))
  {
    var stale := item.(price := stalePrice);
    var items := [OrderItem("1", stale, 1, mods, UnitPrice(stale, mods))];
    assert SameLine(items[0], item, mods);
    var r := AddItem(items, item, mods, "2");
    assert r[0].quantity == 2 && r[0].totalPrice == UnitPrice(stale, mods) + UnitPrice(item, mods);
    assert !LineConsistent(r[0]);
  }

  /** Adding with an id no line carries keeps line ids unique. */
  lemma AddItemIdsUnique(items: seq<OrderItem>, item: MenuItem, mods: ModifierMap, freshId: string)
    requires IdsUnique(items)
    requires forall j :: 0 <= j < |items| ==> items[j].id != freshId
    ensures IdsUnique(AddItem(items, item, mods, freshId))
  {
  }

  /** Adding the same item with the same modifier object twice to a ticket that
      has no such line yields one new line of quantity 2, not two lines. */
  lemma AddTwiceMerges(items: seq<OrderItem>, item: MenuItem, mods: ModifierMap, id1: string, id2: string)
    requires !HasLine(items, item, mods)
    ensures AddItem(AddItem(items, item, mods, id1), item, mods, id2)
         == items + [OrderItem(id1, item, 2, mods, UnitPrice(item, mods) + UnitPrice(item, mods))]
  {
    var unit := UnitPrice(item, mods);
    var t1 := AddItem(items, item, mods, id1);
    assert t1 == items + [OrderItem(id1, item, 1, mods, unit)];
    assert SameLine(t1[|items|], item, mods);
    assert FindLine(t1, item, mods) == |items|;
  }

  /** Merging is sensitive to the order in which options were picked: the same
      two options picked in the opposite order start a second line. */
  lemma MergeIsOrderSensitive(item: MenuItem, a: ModifierOption, b: ModifierOption, group: string)
    requires a != b
    ensures var m1 := [Choice(group, [a, b])];
            var m2 := [Choice(group, [b, a])];
            && Price(m1) == Price(m2)
            && |AddItem(AddItem([], item, m1, "1"), item, m2, "2")| == 2
  {
    var m1 := [Choice(group, [a, b])];
    var m2 := [Choice(group, [b, a])];
    assert m1 != m2 by { assert m1[0].options[0] != m2[0].options[0]; }
    assert Flatten(m1) == [a, b] + [] == [a, b];
    assert Flatten(m2) == [b, a] + [] == [b, a];
    assert [a, b][1..] == [b] && [b, a][1..] == [a];
    assert [a][1..] == [] && [b][1..] == [];
    assert OptionsPrice([a]) == a.price + OptionsPrice([]);
    assert OptionsPrice([b]) == b.price + OptionsPrice([]);
    var t1 := AddItem([], item, m1, "1");
    assert t1 == [OrderItem("1", item, 1, m1, UnitPrice(item, m1))];
    assert !HasLine(t1, item, m2);
  }

  /** Merging is also sensitive to the order in which groups were first written:
      the same choices made group by group in the opposite order read the same in
      every group, yet start a second line. */
  lemma GroupOrderIsMergeSensitive(item: MenuItem, g1: string, a: seq<ModifierOption>, g2: string, b: seq<ModifierOption>)
    requires g1 != g2
    ensures var m1 := Put(Put([], g1, a), g2, b);
            var m2 := Put(Put([], g2, b), g1, a);
            && (forall g :: Lookup(m1, g) == Lookup(m2, g))
            && |AddItem(AddItem([], item, m1, "1"), item, m2, "2")| == 2
  {
    var m1 := Put(Put([], g1, a), g2, b);
    var m2 := Put(Put([], g2, b), g1, a);
    assert m1[0].group == g1 && m2[0].group == g2;
    var t1 := AddItem([], item, m1, "1");
    assert t1 == [OrderItem("1", item, 1, m1, UnitPrice(item, m1))];
    assert !HasLine(t1, item, m2);
  }

  // ---------------------------------------------------------------- quantity

  /** With unique ids, a quantity change touches only the line with that id. */
  lemma ChangeQuantitySplit(items: seq<OrderItem>, i: int, delta: int)
    requires IdsUnique(items)
    requires 0 <= i < |items|
    ensures ChangeQuantity(items, items[i].id, delta) == items[..i] + Step(items[i], items[i].id, delta) + items[i + 1..]
  {
    var id := items[i].id;
    var pre, post := items[..i], items[i + 1..];
    assert items == pre + [items[i]] + post;
    OthersBeforeAndAfter(items, i);
    calc {
      ChangeQuantity(items, id, delta);
      ChangeQuantity(pre + [items[i]] + post, id, delta);
      { ChangeQuantityAppend(pre + [items[i]], post, id, delta); }
      ChangeQuantity(pre + [items[i]], id, delta) + ChangeQuantity(post, id, delta);
      { ChangeQuantityAppend(pre, [items[i]], id, delta); }
      ChangeQuantity(pre, id, delta) + ChangeQuantity([items[i]], id, delta) + ChangeQuantity(post, id, delta);
      { ChangeQuantityAbsent(pre, id, delta); ChangeQuantityAbsent(post, id, delta); ChangeQuantitySingle(items[i], id, delta); }
      pre + Step(items[i], id, delta) + post;
    }
  }

  lemma ChangeQuantitySingle(line: OrderItem, id: string, delta: int)
    ensures ChangeQuantity([line], id, delta) == Step(line, id, delta)
  {
    assert [line][1..] == [];
    assert Step(line, id, delta) + [] == Step(line, id, delta);
  }

  /** The line is removed when its quantity reaches 0 and rescaled in place otherwise. */
  lemma ChangeQuantityAt(items: seq<OrderItem>, i: int, delta: int)
    requires IdsUnique(items)
    requires 0 <= i < |items|
    ensures ChangeQuantity(items, items[i].id, delta) ==
      match Rescale(items[i], delta)
      case None => items[..i] + items[i + 1..]
      case Some(line) => items[i := line]
  {
    ChangeQuantitySplit(items, i, delta);
    match Rescale(items[i], delta)
    case None =>
      assert items[..i] + [] == items[..i];
    case Some(line) =>
      assert items[..i] + [line] + items[i + 1..] == items[i := line];
  }

  /** With unique ids, no line before or after line i shares its id. */
  lemma OthersBeforeAndAfter(items: seq<OrderItem>, i: int)
    requires IdsUnique(items)
    requires 0 <= i < |items|
    ensures NoId(items[..i], items[i].id)
    ensures NoId(items[i + 1..], items[i].id)
  {
    var post := items[i + 1..];
    forall j | 0 <= j < |post| ensures post[j].id != items[i].id {
      assert post[j] == items[i + 1 + j];
    }
  }

  predicate NoId(items: seq<OrderItem>, id: string)
  {
    forall j :: 0 <= j < |items| ==> items[j].id != id
  }

  lemma {:induction false} ChangeQuantityAbsent(items: seq<OrderItem>, id: string, delta: int)
    requires NoId(items, id)
    ensures ChangeQuantity(items, id, delta) == items
  {
    if items != [] {
      ChangeQuantityAbsent(items[1..], id, delta);
    }
  }

  /** At the line's consistent unit price u, the rescaled total is u times the new quantity. */
  lemma RescaleConsistent(line: OrderItem, delta: int)
    requires LineConsistent(line)
    ensures Rescale(line, delta).Some? ==> LineConsistent(Rescale(line, delta).value)
  {
    var u := UnitPrice(line.menuItem, line.modifiers);
    var q := line.quantity as real;
    assert line.totalPrice / q == u by {
      assert line.totalPrice == q * u;
    }
  }

  /** A quantity change keeps every line consistent. */
  lemma {:induction false} ChangeQuantityConsistent(items: seq<OrderItem>, id: string, delta: int)
    requires Consistent(items)
    ensures Consistent(ChangeQuantity(items, id, delta))
  {
    if items != [] {
      ChangeQuantityConsistent(items[1..], id, delta);
      RescaleConsistent(items[0], delta);
    }
  }

  /** On a consistent ticket with unique ids, a quantity change replaces the
      line's total in the subtotal by the unit price times the new quantity
      (0 when the line is dropped). */
  lemma ChangeQuantitySubtotal(items: seq<OrderItem>, i: int, delta: int)
    requires IdsUnique(items) && Consistent(items)
    requires 0 <= i < |items|
    ensures Subtotal(ChangeQuantity(items, items[i].id, delta)) ==
      Subtotal(items) - items[i].totalPrice + NewQuantity(items[i], delta) as real * UnitPrice(items[i].menuItem, items[i].modifiers)
  {
    ChangeQuantitySplit(items, i, delta);
    StepSubtotal(items[i], delta);
    SplicedSubtotal(items, i, delta, ChangeQuantity(items, items[i].id, delta),
      NewQuantity(items[i], delta) as real * UnitPrice(items[i].menuItem, items[i].modifiers));
  }

  lemma SplicedSubtotal(items: seq<OrderItem>, i: int, delta: int, cq: seq<OrderItem>, v: real)
    requires 0 <= i < |items|
    requires cq == items[..i] + Step(items[i], items[i].id, delta) + items[i + 1..]
    requires Subtotal(Step(items[i], items[i].id, delta)) == v
    ensures Subtotal(cq) == Subtotal(items) - items[i].totalPrice + v
  {
    SubtotalSplice(items, i, Step(items[i], items[i].id, delta));
  }

  /** Replacing line i by `mid` replaces its total in the subtotal by `mid`'s subtotal. */
  lemma SubtotalSplice(items: seq<OrderItem>, i: int, mid: seq<OrderItem>)
    requires 0 <= i < |items|
    ensures Subtotal(items[..i] + mid + items[i + 1..]) == Subtotal(items) - items[i].totalPrice + Subtotal(mid)
  {
    var pre, post := items[..i], items[i + 1..];
    assert items == pre + [items[i]] + post;
    SubtotalOfThree(pre, [items[i]], post);
    SubtotalOfThree(pre, mid, post);
    assert [items[i]][1..] == [];
  }

  lemma SubtotalOfThree(a: seq<OrderItem>, b: seq<OrderItem>, c: seq<OrderItem>)
    ensures Subtotal(a + b + c) == Subtotal(a) + Subtotal(b) + Subtotal(c)
  {
    SubtotalAppend(a + b, c);
    SubtotalAppend(a, b);
  }

  lemma StepSubtotal(line: OrderItem, delta: int)
    requires LineConsistent(line)
    ensures Subtotal(Step(line, line.id, delta)) == NewQuantity(line, delta) as real * UnitPrice(line.menuItem, line.modifiers)
  {
    RescaleConsistent(line, delta);
    match Rescale(line, delta)
    case None =>
    case Some(l) =>
      assert Subtotal([l]) == l.totalPrice + Subtotal([]);
  }

  // ---------------------------------------------------------------- removal

  /** With unique ids, removal drops exactly the line with that id. */
  lemma RemoveAt(items: seq<OrderItem>, i: int)
    requires IdsUnique(items)
    requires 0 <= i < |items|
    ensures RemoveItem(items, items[i].id) == items[..i] + items[i + 1..]
  {
    var id := items[i].id;
    var pre, post := items[..i], items[i + 1..];
    assert items == pre + [items[i]] + post;
    OthersBeforeAndAfter(items, i);
    assert Without([items[i]], id) == [] by {
      assert [items[i]][1..] == [];
    }
    calc {
      RemoveItem(items, id);
      Without(pre + [items[i]] + post, id);
      { WithoutAppend(pre + [items[i]], post, id); }
      Without(pre + [items[i]], id) + Without(post, id);
      { WithoutAppend(pre, [items[i]], id); }
      Without(pre, id) + Without([items[i]], id) + Without(post, id);
      { WithoutAbsent(pre, id); WithoutAbsent(post, id); }
      pre + post;
    }
  }

  /** With unique ids, removing a line lowers the subtotal by that line's total. */
  lemma {:induction false} RemoveSubtotal(items: seq<OrderItem>, i: int)
    requires IdsUnique(items)
    requires 0 <= i < |items|
    ensures Subtotal(RemoveItem(items, items[i].id)) == Subtotal(items) - items[i].totalPrice
  {
    RemoveAt(items, i);
    SubtotalRemoveAt(items, i);
  }

  lemma {:induction false} WithoutAbsent(items: seq<OrderItem>, id: string)
    requires NoId(items, id)
    ensures Without(items, id) == items
  {
    if items != [] {
      WithoutAbsent(items[1..], id);
    }
  }

  /** Removing a line keeps the remaining lines consistent and their ids unique. */
  lemma RemoveKeepsInvariant(items: seq<OrderItem>, id: string)
    requires Consistent(items) && IdsUnique(items)
    ensures Consistent(RemoveItem(items, id))
    ensures IdsUnique(RemoveItem(items, id))
  {
    WithoutKeepsIdsUnique(items, id);
  }

  lemma {:induction false} WithoutKeepsIdsUnique(items: seq<OrderItem>, id: string)
    requires IdsUnique(items)
    ensures IdsUnique(Without(items, id))
  {
    if items != [] {
      assert IdsUnique(items[1..]) by {
        forall p, q | 0 <= p < q < |items[1..]| ensures items[1..][p].id != items[1..][q].id {
          assert items[1..][p] == items[p + 1] && items[1..][q] == items[q + 1];
        }
      }
      WithoutKeepsIdsUnique(items[1..], id);
      var rest := Without(items[1..], id);
      forall j | 0 <= j < |rest| ensures rest[j].id != items[0].id {
        WithoutMembers(items[1..], id);
        assert rest[j] in items[1..];
      }
    }
  }
}

=== FILE: timeclock.dfy ===
/** The timeclock screen: a PIN keypad that identifies an employee, then clock-in,
    clock-out and break buttons that move the employee's clock state and write
    the shifts table. */
module Timeclock {
  import opened Schema
  import opened Rows
  import PinPad
  import Shifts

  datatype Clock = Clock(pin: string, employee: Option<Employee>, error: string)

  function Open(): Clock
  {
    Clock("", None, "")
  }

  function Press(c: Clock, key: char): Clock
  {
    c.(pin := PinPad.Press(c.pin, key))
  }

  /** `handleClear`: PIN, identified employee and error are all reset. */
  function Clear(c: Clock): (r: Clock)
    ensures r.pin == [] && r.employee.None? && r.error == []
  {
    Open()
  }

  const ShortPinError := "PIN must be at least 4 digits"
  const InvalidPinError := "Invalid PIN"
  const VerifyFailedError := "Failed to verify PIN"
  const ClockInFailedError := "Failed to clock in"
  const ClockOutFailedError := "Failed to clock out"
  const StartBreakFailedError := "Failed to start break"
  const EndBreakFailedError := "Failed to end break"

  /** `handlePinSubmit`. `reachable` is false when the awaited lookup throws. */
  function Submit(c: Clock, employees: seq<Employee>, reachable: bool): (r: Clock)
    ensures r.employee.Some? <==>
      c.employee.Some? || (PinPad.LongEnough(c.pin) && reachable && |Filter(employees, (e: Employee) => e.pin == c.pin)| == 1)
    ensures r.employee.Some? && r.employee != c.employee ==> r.employee.value in employees && r.employee.value.pin == c.pin
    ensures !PinPad.LongEnough(c.pin) ==> r == c.(error := ShortPinError)
    ensures PinPad.LongEnough(c.pin) && !reachable ==> r == c.(error := VerifyFailedError)
    ensures PinPad.LongEnough(c.pin) && reachable && |Filter(employees, (e: Employee) => e.pin == c.pin)| != 1 ==>
      r == c.(pin := "", error := InvalidPinError)
  {
    if !PinPad.LongEnough(c.pin) then c.(error := ShortPinError)
    else if !reachable then c.(error := VerifyFailedError)
    else
      var rows := Filter(employees, (e: Employee) => e.pin == c.pin);
      match Single(rows)
      case NoRow => c.(pin := "", error := InvalidPinError)
      case Row(e) =>
        assert e in rows;
        c.(employee := Some(e), error := "")
  }

  datatype Step = Step(clock: Clock, store: Store)

  /** `handleClockIn`: a new shift starting now is inserted (the store assigns
      `freshShiftId`), and the employee row and the screen's employee become
      clocked in on it. When the insert fails nothing is written and the error
      is shown. Without an identified employee nothing happens. */
  function ClockIn(c: Clock, store: Store, now: int, freshShiftId: string, inserted: bool): (r: Step)
    ensures c.employee.None? ==> r == Step(c, store)
    ensures c.employee.Some? && !inserted ==> r == Step(c.(error := ClockInFailedError), store)
    ensures c.employee.Some? && inserted ==>
      && r.clock.employee == Some(c.employee.value.(isClockedIn := true, currentShiftId := Some(freshShiftId)))
      && r.store.shifts == store.shifts + [Shift(freshShiftId, c.employee.value.id, now, None, None, None, None)]
      && r.store.employees == Shifts.SetClock(store.employees, c.employee.value.id, true, Some(freshShiftId))
    ensures r.store == store.(shifts := r.store.shifts, employees := r.store.employees)
    ensures r.clock.pin == c.pin
  {
    match c.employee
    case None => Step(c, store)
    case Some(e) =>
      if !inserted then Step(c.(error := ClockInFailedError), store)
      else
        var shift := Shift(freshShiftId, e.id, now, None, None, None, None);
        Step(c.(employee := Some(e.(isClockedIn := true, currentShiftId := Some(freshShiftId)))),
             store.(shifts := store.shifts + [shift],
                    employees := Shifts.SetClock(store.employees, e.id, true, Some(freshShiftId))))
  }

  /** Whether the identified employee has a current shift id (the guard of
      clock-out and both break handlers). */
  predicate OnShift(c: Clock)
  {
    c.employee.Some? && Truthy(c.employee.value.currentShiftId)
  }

  /** `handleClockOut`: the current shift is closed with the hours since its
      clock-in, and the employee row and the screen's employee become clocked
      out. A current shift id with no single matching shift fails ("Failed to
      clock out") before anything is written. Without a shift id nothing happens. */
  function ClockOut(c: Clock, store: Store, now: int): (r: Step)
    ensures !OnShift(c) ==> r == Step(c, store)
    ensures OnShift(c) && Shifts.FindShift(store.shifts, c.employee.value.currentShiftId.value).NoRow? ==>
      r == Step(c.(error := ClockOutFailedError), store)
    ensures OnShift(c) && Shifts.FindShift(store.shifts, c.employee.value.currentShiftId.value).Row? ==>
      && r.clock.employee == Some(c.employee.value.(isClockedIn := false, currentShiftId := None))
      && r.store.employees == Shifts.SetClock(store.employees, c.employee.value.id, false, None)
      && |r.store.shifts| == |store.shifts|
      && forall j :: 0 <= j < |store.shifts| ==>
           if store.shifts[j].id == c.employee.value.currentShiftId.value
           then && r.store.shifts[j] == store.shifts[j].(clockOut := Some(now), totalHours := Some(HoursBetween(store.shifts[j].clockIn, now)))
                && Shifts.HoursRecorded(r.store.shifts[j])
           else r.store.shifts[j] == store.shifts[j]
    ensures r.store == store.(shifts := r.store.shifts, employees := r.store.employees)
  {
    if !OnShift(c) then Step(c, store)
    else
      var e := c.employee.value;
      var shiftId := e.currentShiftId.value;
      match Shifts.FindShift(store.shifts, shiftId)
      case NoRow => Step(c.(error := ClockOutFailedError), store)
      case Row(shift) =>
        var hours := HoursBetween(shift.clockIn, now);
        Shifts.CloseShiftRecordsHours(store.shifts, shiftId, now);
        Step(c.(employee := Some(e.(isClockedIn := false, currentShiftId := None))),
             store.(shifts := Shifts.CloseShift(store.shifts, shiftId, now, hours),
                    employees := Shifts.SetClock(store.employees, e.id, false, None)))
  }

  /** `handleStartBreak` (or, with `end`, `handleEndBreak`): the current shift's
      break start (or end) is stamped. Only the shifts table changes, and the
      clock state never does. */
  function Break(c: Clock, store: Store, now: int, end: bool, reachable: bool): (r: Step)
    ensures !OnShift(c) ==> r == Step(c, store)
    ensures OnShift(c) && !reachable ==>
      r == Step(c.(error := if end then EndBreakFailedError else StartBreakFailedError), store)
    ensures OnShift(c) && reachable ==>
      r == Step(c, store.(shifts := Shifts.MarkBreak(store.shifts, c.employee.value.currentShiftId.value, now, end)))
    ensures r.clock.employee == c.employee && r.store.employees == store.employees
  {
    if !OnShift(c) then Step(c, store)
    else if !reachable then Step(c.(error := if end then EndBreakFailedError else StartBreakFailedError), store)
    else Step(c, store.(shifts := Shifts.MarkBreak(store.shifts, c.employee.value.currentShiftId.value, now, end)))
  }

  function StartBreak(c: Clock, store: Store, now: int, reachable: bool): Step
  {
    Break(c, store, now, false, reachable)
  }

  function EndBreak(c: Clock, store: Store, now: int, reachable: bool): Step
  {
    Break(c, store, now, true, reachable)
  }

  /** The screen and the employees table agree on clock state and stay consistent. */
  predicate Consistent(c: Clock, store: Store)
  {
    && Shifts.AllClockConsistent(store.employees)
    && (c.employee.Some? ==> Shifts.ClockConsistent(c.employee.value))
  }

  /** Every timeclock handler keeps the clock-state invariant: clocked in exactly
      when a current shift id is recorded. */
  lemma HandlersKeepConsistent(c: Clock, store: Store, now: int, freshShiftId: string, inserted: bool, end: bool, reachable: bool)
    requires Consistent(c, store)
    ensures var r := ClockIn(c, store, now, freshShiftId, inserted); Consistent(r.clock, r.store)
    ensures var r := ClockOut(c, store, now); Consistent(r.clock, r.store)
    ensures var r := Break(c, store, now, end, reachable); Consistent(r.clock, r.store)
  {
    if c.employee.Some? {
      Shifts.SetClockKeepsConsistent(store.employees, c.employee.value.id, true, Some(freshShiftId));
      Shifts.SetClockKeepsConsistent(store.employees, c.employee.value.id, false, None);
    }
  }

  /** Clocking in and later out returns the employee to clocked out, leaves one
      closed shift starting at the clock-in that records the hours worked, and
      puts every employee row with that id back to clocked out. */
  lemma ClockInThenOut(c: Clock, store: Store, start: int, finish: int, freshShiftId: string)
    requires c.employee.Some?
    requires freshShiftId != ""
    requires forall j :: 0 <= j < |store.shifts| ==> store.shifts[j].id != freshShiftId
    ensures var inStep := ClockIn(c, store, start, freshShiftId, true);
            var outStep := ClockOut(inStep.clock, inStep.store, finish);
            var e := c.employee.value;
            && outStep.clock.employee == Some(e.(isClockedIn := false, currentShiftId := None))
            && outStep.store.employees == Shifts.SetClock(store.employees, e.id, false, None)
            && |outStep.store.shifts| == |store.shifts| + 1
            && outStep.store.shifts[..|store.shifts|] == store.shifts
            && outStep.store.shifts[|store.shifts|] ==
                 Shift(freshShiftId, e.id, start, Some(finish), None, None, Some(HoursBetween(start, finish)))
  {
    var e := c.employee.value;
    var inStep := ClockIn(c, store, start, freshShiftId, true);
    var shifts1 := inStep.store.shifts;
    var p := (s: Shift) => s.id == freshShiftId;
    FilterAppend(store.shifts, [Shift(freshShiftId, e.id, start, None, None, None, None)], p);
    FilterKeepsNone(store.shifts, p);
    assert Filter([Shift(freshShiftId, e.id, start, None, None, None, None)], p)
        == [Shift(freshShiftId, e.id, start, None, None, None, None)];
    assert Shifts.FindShift(shifts1, freshShiftId).Row?;
    var outStep := ClockOut(inStep.clock, inStep.store, finish);
    assert outStep.store.shifts[..|store.shifts|] == store.shifts;
    var emps := Shifts.SetClock(store.employees, e.id, true, Some(freshShiftId));
    assert Shifts.SetClock(emps, e.id, false, None) == Shifts.SetClock(store.employees, e.id, false, None);
  }
}
